=== FILE: README.md ===
# TurnThang battle rules in Dafny

This project models the engine-independent rules of TurnThang, a turn-based tactical game. All of these rules are integer logic over grid coordinates and pawn records.

- **`Grid`** (`grid.dfy`) is the integer geometry of `Grid.cs`:
  - the bounds check and Manhattan distance;
  - the range test and the diamond-shaped range enumeration;
  - line tracing;
  - the rank/row projections relative to the grid's cardinal `Forward` vector;
  - the rank and row enumerations and their sizes;
  - the whole-grid enumeration.
- **`Formations`** (`formations.dfy`) is `Formation.cs`: a grid that knows its pawns, and the first-match lookup of a pawn by coordinate.
- **`Cells`** (`cells.dfy`) holds what the cell-based targeting code reads of a formation and its cells.
- **`Restrictions`** (`restrictions.dfy`) holds the targeting restrictions `ExposedCells` (a forward walk looking for obscuring cells) and `RankCellsRestriction`.
- **`TargetableCells`** (`targetable.dfy`) is `LinearExposedCells`. Per formation, it scans a line back from the front rank and stops after the first valid occupied cell.
- **`Statuses`** (`statuses.dfy`) holds the `Collate` rules of the stunned, poison and drowsy statuses and the hooks those statuses override.
- **`ActionNodes`** (`nodes.dfy`) holds the effect nodes `DoDamageNode`, `SetHealthNode` and `IsHitNode`.
- **`Actions`** (`actions.dfy`) holds the legacy stand-alone `FireboltAction` and `MoveAction`.
- **`Stats`** (`stats.dfy`) holds the `PawnStats`/`ActorStats` assets that initialise a pawn.
- **Supporting modules:**
  - `Vectors` holds `Vector2Int` and its helpers.
  - `Subsequences` holds order-preserving selection.
  - `Options` holds `Option`.
  - `Pawns` holds the mutable pawn record.

The code's loops are modelled as methods with `while`/`for` loops. An object the source updates in place is a class: `Pawn` and `Status`. `ActionList` is a class as well, so that assigning it shares the list by reference, as the source does.

Each method is proved against a specification function, and the lemmas beside that function state what the source promises:

- membership;
- order;
- bounds;
- the first match;
- "nothing else changes".

Several parts of the source are stated here as assumptions:

- **Vector helpers.** The source of `Perpendicular()`, `MaxAxisMagnitude()` and `Reduce()` is not part of this model. Their definitions are assumptions:
  - `Perpendicular(v) = (-v.y, v.x)`, which is orthogonal to `v` and cardinal when `v` is;
  - `MaxAxisMagnitude` returns the component of larger absolute value, `x` on a tie;
  - `Reduce` is the per-axis sign.
- **Grid inputs.** `Forward` (one of the four unit vectors) and `FrontFlankCoordinate` are inputs of the grid.
- **The revised `Formation` and `Cell` classes** that `ExposedCells` and the action nodes use are not part of this model. `Cells.CellFormation` states what is read of them:
  - a rectangle `[origin, origin + extent)`;
  - a facing;
  - a cell lookup (`GetCell`) that finds the contents of a coordinate, or nothing where the grid has no cell;
  - for a cell, its first pawn (`GetContent<Pawn>`, modelled by `Cells.GetPawn`) and the pawns it holds;
  - `cell.Formation.GetRank(c)` is `Grid.GetRank` over the formation's grid shape (`CellFormation.shape`). Its front flank is an input and is not derived from the formation's origin and extent.
- **The pawn's own handlers.** The bodies of `TakeDamage`, `SetHealth`, `AddStatus`, `GetAmplifiedDamage` and `IsHit` are not part of this model:
  - `TakeDamage` and `SetHealth` are recorded, in order, in `Pawn.calls`;
  - `AddStatus` appends to `Pawn.addedStatuses`;
  - `GetAmplifiedDamage` is the pawn's function `amplify`;
  - `IsHit` is an oracle parameter.
- **Pawn health.** `Pawn.Health` is a property in the source, and its setter raises `OnHealthChanged`. Here it is a plain field, with no event and no clamping. So `Actions.ApplyDamage` lowering health by exactly the damage, and `Statuses.Status.DoEffect` lowering it by exactly the tick, both rest on that setter storing the value unchanged.

## Model

| member | source | states |
|---|---|---|
| Vectors.PerpendicularIsOrthogonal | Assets/Scripts/GridBased/Grid.cs:154 | The assumed perpendicular of Forward is orthogonal to it, and cardinal when Forward is. |
| Vectors.MaxAxisMagnitude | Assets/Scripts/GridBased/Grid.cs:198 | The assumed dominant component: its magnitude is the larger axis magnitude, and it is one of the two components. |
| Vectors.Reduce | Assets/Scripts/GridBased/Grid.cs:252 | The assumed line step is zero exactly for the zero vector. |
| Vectors.ReduceOfCardinal | Assets/Scripts/GridBased/Grid.cs:252 | Reducing a cardinal vector leaves it unchanged. |
| Grid.ContainsCoordinate | Assets/Scripts/GridBased/Grid.cs:86-92 | A coordinate is on the grid iff 0 <= x < NCells.x and 0 <= y < NCells.y. |
| Grid.GetDistance | Assets/Scripts/GridBased/Grid.cs:130-134 | The distance is non-negative, is zero exactly for equal coordinates, and bounds each axis difference. |
| Grid.DistanceSymmetric | Assets/Scripts/GridBased/Grid.cs:130-134 | The distance from a to b equals the distance from b to a. |
| Grid.IsInRange | Assets/Scripts/GridBased/Grid.cs:121-125 | In range iff minRange <= distance <= maxRange (minRange defaults to 0). A negative maxRange, or one below minRange, rejects everything. |
| Grid.DiamondColumn | Assets/Scripts/GridBased/Grid.cs:100-109 | Column origin.x+i of the range diamond is the span origin.y ± (range - abs(i)) that the inner loop walks. |
| Grid.GetCoordinatesInRange | Assets/Scripts/GridBased/Grid.cs:98-115 | Yields exactly the on-grid coordinates within `range` of the origin. They come in strictly increasing x-then-y order, so each appears once. A negative range yields nothing. |
| Grid.ClipKeepsOnGrid | Assets/Scripts/GridBased/Grid.cs:253-258 | Filtering a trace to the grid keeps exactly its on-grid points, in order. |
| Grid.ClipStep | Assets/Scripts/GridBased/Grid.cs:253-258 | One loop step of the line filter: a point is kept iff it is on the grid. |
| Grid.GetCoordinatesInLine | Assets/Scripts/GridBased/Grid.cs:249-259 | Yields the on-grid points of the trace origin + step·i, 0 <= i <= max(abs(line.x), abs(line.y)), in trace order. |
| Grid.LineCoordinatesOnTrace | Assets/Scripts/GridBased/Grid.cs:249-259 | The line is an ordered subsequence of the trace with at most n+1 points. Every yielded point is on the grid and of the form origin + step·i. Every on-grid trace point is yielded. |
| Grid.GetRank | Assets/Scripts/GridBased/Grid.cs:195-201 | The rank is a non-negative projection of (front flank - coordinate) on Forward. |
| Grid.GetRow | Assets/Scripts/GridBased/Grid.cs:184-190 | The row is a non-negative projection of (front flank - coordinate) on the perpendicular of Forward. |
| Grid.GetNRanks | Assets/Scripts/GridBased/Grid.cs:206-210 | The number of ranks equals GetRowDepth, and is the grid's extent along Forward. |
| Grid.GetRowDepth | Assets/Scripts/GridBased/Grid.cs:212-219 | The row depth is the grid's extent along Forward. |
| Grid.GetRankWidth | Assets/Scripts/GridBased/Grid.cs:224-231 | The rank width is the grid's extent across Forward. |
| Grid.RanksCoverGrid | Assets/Scripts/GridBased/Grid.cs:206-231 | Number of ranks × rank width = the grid's cell count. |
| Grid.RankCoordinates | Assets/Scripts/GridBased/Grid.cs:157-163 | A rank holds exactly GetRankWidth coordinates. |
| Grid.RankCoordinateProjections | Assets/Scripts/GridBased/Grid.cs:151-161 | For rank r >= 0, cell i of the rank enumeration has GetRank = r and GetRow = i. This holds for every cardinal Forward. |
| Grid.RankIsDepth | Assets/Scripts/GridBased/Grid.cs:195-201 | Behind the front flank, GetRank is the signed depth (front flank - coordinate)·Forward. |
| Grid.RowIsOffset | Assets/Scripts/GridBased/Grid.cs:184-190 | On the rank side of the front flank, GetRow is the signed offset (coordinate - front flank)·Perpendicular(Forward). |
| Grid.RankRowRoundTrip | Assets/Scripts/GridBased/Grid.cs:184-201 | A coordinate behind the front flank, on the side the ranks are enumerated to, is cell GetRow of rank GetRank: with RankCoordinateProjections, (rank, row) and the coordinate determine each other. |
| Grid.RowCoordinateProjections | Assets/Scripts/GridBased/Grid.cs:169-179 | For row w >= 0, cell i of the row enumeration has GetRow = w and GetRank = i. |
| Grid.RankAndRowEnumerationsDisjoint | Assets/Scripts/GridBased/Grid.cs:166-182 | As written, no cell enumerated for a rank is enumerated for row w >= 1. |
| Grid.AlignedRankRowMeetOnce | Assets/Scripts/GridBased/Grid.cs:166-182 | With rows stepping to the rank side, rank r and row w share exactly one cell: cell w of the rank, which is cell r of the row. |
| Grid.GetRankCoordinates | Assets/Scripts/GridBased/Grid.cs:148-164 | Yields GetRankWidth coordinates, unclipped, each with GetRank = rank and GetRow = its index. |
| Grid.GetFrontRankCoordinates | Assets/Scripts/GridBased/Grid.cs:140-143 | Equals the rank-0 enumeration; every coordinate has rank 0. |
| Grid.GetRowCoordinates | Assets/Scripts/GridBased/Grid.cs:166-182 | Yields GetRowDepth coordinates, each with GetRow = row and GetRank = its index. These are the as-written positions. |
| Grid.GetAlignedRowCoordinates | Assets/Scripts/GridBased/Grid.cs:166-182 | The corrected row enumeration: its cell i is cell `row` of rank i. |
| Grid.GetCoordinates | Assets/Scripts/GridBased/Grid.cs:264-271 | Yields exactly the on-grid coordinates, in strictly increasing x-major order, NCells.x·NCells.y of them. |
| Formations.FirstIndexAt | Assets/Scripts/GridBased/Formation.cs:18 | The first index whose pawn stands at the coordinate; None iff no pawn does. |
| Formations.GetPawnAtCoordinate | Assets/Scripts/GridBased/Formation.cs:16-19 | A non-null result stands at the coordinate and is the lowest-index such pawn. The result is null iff no pawn stands there. It is a function and changes nothing. |
| Cells.GetPawn | Assets/Scripts/ActionSystem/ActionNode/DoDamageNode.cs:21 | GetContent<Pawn> returns the first pawn among the contents, or null iff the contents hold no pawn. |
| Restrictions.IsExposed | Assets/Scripts/ActionSystem/TargetingRestrictions/ExposedCells.cs:9-27 | The walk from coordinate+facing returns the reference ClearFrom. A cell whose next coordinate is outside the formation is exposed. |
| Restrictions.AheadStep | Assets/Scripts/ActionSystem/TargetingRestrictions/ExposedCells.cs:24 | One more step of the walker is one more step ahead of the cell. |
| Restrictions.ExposedMeansClearAhead | Assets/Scripts/ActionSystem/TargetingRestrictions/ExposedCells.cs:15-26 | Exposed iff, for every k >= 1 with the walk still inside the formation, the cell k steps ahead is missing or empty. |
| Restrictions.ExposedIgnoresOwnContents | Assets/Scripts/ActionSystem/TargetingRestrictions/ExposedCells.cs:15 | Changing the target cell's own contents never changes the answer. |
| Restrictions.ClearAheadIgnores | Assets/Scripts/ActionSystem/TargetingRestrictions/ExposedCells.cs:15-25 | The walk from w never reads a cell c that w lies strictly ahead of (any cell behind w). |
| Restrictions.MissingCellIsEmpty | Assets/Scripts/ActionSystem/TargetingRestrictions/ExposedCells.cs:20-22 | A coordinate without a cell blocks the view exactly as an empty cell does: not at all. |
| Restrictions.RankCellsValid | Assets/Scripts/ActionSystem/TargetingRestrictions/RankCellsRestriction.cs:10-13 | Valid iff the cell's rank in its formation is one of Ranks. |
| Restrictions.RankCellsDefaultRejects | Assets/Scripts/ActionSystem/TargetingRestrictions/RankCellsRestriction.cs:8-12 | With the default empty Ranks, every cell is rejected. |
| Restrictions.RankCellsMonotone | Assets/Scripts/ActionSystem/TargetingRestrictions/RankCellsRestriction.cs:12 | Adding ranks never turns a valid cell invalid. |
| Restrictions.RankCellsIgnoresActor | Assets/Scripts/ActionSystem/TargetingRestrictions/RankCellsRestriction.cs:10-13 | The actor does not influence the result. |
| TargetableCells.FirstSharingAxis | Assets/Scripts/Pawns/TargetableCells/LinearExposedCells.cs:17-19 | First returns the lowest-index front-rank coordinate sharing x or y with the actor. None iff there is none, which is where First throws. |
| TargetableCells.ScanLineShape | Assets/Scripts/Pawns/TargetableCells/LinearExposedCells.cs:25-35 | The coordinates yielded for one formation are valid and form an ordered subsequence of the line. At most the last of them is occupied. |
| TargetableCells.ScanStopsOnlyAtValidOccupied | Assets/Scripts/Pawns/TargetableCells/LinearExposedCells.cs:27-34 | Without a valid occupied cell, every valid cell of the line is yielded. Occupied cells that are not valid targets do not stop the scan. |
| TargetableCells.ScanStopsAtFirstValidOccupied | Assets/Scripts/Pawns/TargetableCells/LinearExposedCells.cs:25-35 | When the first valid occupied cell of the line is at k, the scan yields exactly the valid cells of the line up to and including k. Invalid occupied cells before k do not stop it, and nothing after k is yielded. |
| TargetableCells.ScanOnTrace | Assets/Scripts/Pawns/TargetableCells/LinearExposedCells.cs:21-24 | The yielded coordinates are an ordered subsequence of the trace from the start coordinate, away from the front. |
| TargetableCells.TargetScanValid | Assets/Scripts/Pawns/TargetableCells/LinearExposedCells.cs:27-29 | Every yielded (formation, coordinate) satisfies the action's IsTargetValid. |
| TargetableCells.TargetScanAppend | Assets/Scripts/Pawns/TargetableCells/LinearExposedCells.cs:13 | Formations are processed in the given order: the scan of a + b is the scan of a followed by the scan of b. |
| TargetableCells.GetTargetableCells | Assets/Scripts/Pawns/TargetableCells/LinearExposedCells.cs:10-38 | The nested loop yields exactly the reference scan. `complete` is false where First finds no coordinate. |
| TargetableCells.ScanFormation | Assets/Scripts/Pawns/TargetableCells/LinearExposedCells.cs:15-35 | One formation's iteration equals its reference targets, or None where First throws. |
| TargetableCells.ScanCoordinates | Assets/Scripts/Pawns/TargetableCells/LinearExposedCells.cs:25-35 | The inner loop, with its break, yields exactly the reference line scan. |
| Statuses.StunnedCollate | Assets/Scripts/ActionSystem/Status/StunnedStatus.cs:19-34 | A stun absorbs exactly stuns, sleep and drowsiness. Against a stun, the result is at least both durations. Against anything else, the duration is kept. |
| Statuses.StunnedCollateOutcome | Assets/Scripts/ActionSystem/Status/StunnedStatus.cs:19-34 | A stun absorbs exactly stuns, sleep and drowsiness. A stun keeps the max of the two durations, and other kinds leave the duration alone. Duration never decreases. |
| Statuses.StunnedCollateIdempotent | Assets/Scripts/ActionSystem/Status/StunnedStatus.cs:24 | Collating the same stun twice gives the same result as once. |
| Statuses.StunnedCollateOrderIrrelevant | Assets/Scripts/ActionSystem/Status/StunnedStatus.cs:24 | Two incoming stuns give the same duration in either order. |
| Statuses.StunnedExamples | Assets/Scripts/ActionSystem/Status/StunnedStatus.cs:22-31 | A stun of 2 met by a stun of 5 becomes a stun of 5; a stunned pawn absorbs drowsiness. |
| Statuses.PoisonCollate | Assets/Scripts/Status/PoisonStatus.cs:13-22 | Poison absorbs exactly poison. It grows by the incoming duration on a poison and is otherwise unchanged. |
| Statuses.PoisonCollateAccumulates | Assets/Scripts/Status/PoisonStatus.cs:13-22 | Poison absorbs exactly poison and leaves other kinds' duration alone. Collating a then b equals collating a + b. |
| Statuses.PoisonCollateNeverShortens | Assets/Scripts/Status/PoisonStatus.cs:17 | A non-negative incoming duration never shortens the poison. |
| Statuses.DrowsyCollateAsWritten | Assets/Scripts/Status/DrowsyStatus.cs:22-29 | As written, a drowsy status absorbs every kind except Drowsy, and never changes its Duration. |
| Statuses.DrowsyAsWrittenIsInverted | Assets/Scripts/Status/DrowsyStatus.cs:22-29 | For every incoming kind, the as-written rule absorbs iff the kind is not Drowsy and keeps Duration. So a second Drowsy is let through (false), while poison and stun are absorbed (true). |
| Statuses.DrowsyCollateRejectsOnlyDrowsy | Assets/Scripts/Status/DrowsyStatus.cs:22-29 | The intended rule absorbs exactly a second Drowsy, is the negation of the as-written rule, and never changes Duration. |
| Statuses.AdjustStat | Assets/Scripts/ActionSystem/Status/StunnedStatus.cs:10 | `Stats[name].Value += delta` changes that counter by delta and no other entry. |
| Statuses.StunCounterRestored | Assets/Scripts/ActionSystem/Status/StunnedStatus.cs:7-17 | Applying and then expiring a stun restores the "Stunned" counter. |
| Statuses.Status.Collate | Assets/Scripts/ActionSystem/Status/StunnedStatus.cs:19-34 | The stunned, poison and drowsy Collate methods return and set Duration exactly as each source writes them, the Drowsy rule included (false for an incoming Drowsy, true otherwise). Only this status's Duration may change. |
| Statuses.Status.OnApplication | Assets/Scripts/ActionSystem/Status/StunnedStatus.cs:7-11 | A stun raises Stats["Stunned"] by one; poison and drowsiness leave the stats alone. A sleep status is excluded. |
| Statuses.Status.OnExpired | Assets/Scripts/Status/DrowsyStatus.cs:14-20 | Drowsiness queues exactly one Sleep status of SleepDuration. A stun lowers Stats["Stunned"] by one. For a stun, poison or drowsy status nothing else changes. A sleep status is excluded. |
| Statuses.Status.DoEffect | Assets/Scripts/Status/PoisonStatus.cs:6-11 | Poison lowers the pawn's health by the per-turn tick; stuns and drowsiness leave it alone. Sleep and burning statuses are excluded. |
| ActionNodes.Inflicted | Assets/Scripts/ActionSystem/ActionNode/DoDamageNode.cs:24 | Not amplifyable: the base damage. Amplifyable: the actor's amplification of it. |
| ActionNodes.DoDamageNodeDefaults | Assets/Scripts/ActionSystem/ActionNode/DoDamageNode.cs:12-17 | Amplifyable and Defendable default to true. |
| ActionNodes.DoDamage | Assets/Scripts/ActionSystem/ActionNode/DoDamageNode.cs:19-29 | Returns true. The first pawn of the cell receives exactly one TakeDamage(inflicted, Defendable). No other pawn changes, and an empty cell changes nothing. |
| ActionNodes.SetHealthDo | Assets/Scripts/ActionSystem/ActionNode/SetHealthNode.cs:6-12 | Returns true. Exactly the cell's first pawn receives SetHealth(Amount). The actor is not read, and an empty cell changes nothing. |
| ActionNodes.IsHitDo | Assets/Scripts/ActionSystem/ActionNode/IsHitNode.cs:5-14 | A hit needs a "Cell" entry whose cell holds a pawn, and that pawn's IsHit must say it is hit. |
| ActionNodes.IsHitNeedsDefender | Assets/Scripts/ActionSystem/ActionNode/IsHitNode.cs:5-14 | A missing "Cell" or a cell without a pawn gives false. Otherwise the result is the defender's IsHit. The node is a function and writes nothing. |
| Actions.HitChance | Assets/Scripts/Pawns/Actions/FireboltAction.cs:28 | The hit chance is max(0.1, accuracy - evasion): never below MINIMUM_HIT_CHANCE. |
| Actions.IsHit | Assets/Scripts/Pawns/Actions/FireboltAction.cs:25-32 | The draw hits iff it is at most the 0.1 floor or at most accuracy - evasion. |
| Actions.LowRollAlwaysHits | Assets/Scripts/Pawns/Actions/FireboltAction.cs:9-29 | A draw at most 0.1 always hits, whatever the evasion. |
| Actions.Damage | Assets/Scripts/Pawns/Actions/FireboltAction.cs:38 | Damage is max(0, attack - defense): never negative, and 0 when attack <= defense. |
| Actions.ApplyDamage | Assets/Scripts/Pawns/Actions/FireboltAction.cs:35-41 | The defender's health drops by exactly the damage. |
| Actions.Firebolt | Assets/Scripts/Pawns/Actions/FireboltAction.cs:15-22 | Damage is applied to the pawn at the target only when the draw hits. Only that pawn's health changes. |
| Actions.IsActorAble | Assets/Scripts/Actions/MoveAction.cs:5-8 | An actor is able iff it is not incapacitated. |
| Actions.IsMoveTargetValid | Assets/Scripts/Actions/MoveAction.cs:10-13 | The target position is valid iff no pawn of the map stands there. |
| Actions.MoveTargetValidIffEmpty | Assets/Scripts/Actions/MoveAction.cs:10-13 | The move target is valid iff no pawn of the map stands at the position. |
| Actions.Move | Assets/Scripts/Actions/MoveAction.cs:15-25 | Returns IsActorAble ∧ IsTargetValid. When true, the actor stands at the target. When false, its coordinate is unchanged. |
| Stats.PawnStatsResult | Assets/Scripts/Pawns/PawnStats.cs:14-22 | After SetStats, name, Defense, Evasion, MaxHealth and Priority are the asset's, Health = MaxHealth, and the actor fields are untouched. |
| Stats.ActorStatsResult | Assets/Scripts/Pawns/ActorStats.cs:17-29 | The base assignments happen first. An actor also gets Movement, Attack, Accuracy and the same Actions list. A non-actor gets only the base fields. |
| Stats.SetStatsIdempotent | Assets/Scripts/Pawns/ActorStats.cs:17-29 | Applying either SetStats twice leaves the same pawn as once. |
| Stats.SetPawnStats | Assets/Scripts/Pawns/PawnStats.cs:14-22 | The pawn's new fields are the asset applied to its old fields. |
| Stats.SetActorStats | Assets/Scripts/Pawns/ActorStats.cs:17-29 | The pawn's new fields are the actor asset applied to its old fields. The Actions list is shared by reference, not copied. |

## Left out

- Integers are unbounded: C#'s 32-bit `int` wrap-around is not modelled. `GetCoordinatesInRange` never ends for `range == int.MaxValue`, and `Math.Abs(int.MinValue)` throws; neither happens here.
- Statuses.PoisonCollateNeverShortens: holds for unbounded integers only. In the source, `Duration += other.Duration` wraps past `int.MaxValue`, and there it can shorten the poison.
- World-space and float geometry of `Grid.cs` is not modelled: cell size, bounds, world-position mapping and `GetClosestCoordinate`. It is engine transform and float math. `Forward` and `FrontFlankCoordinate` are given instead.
- `Perpendicular()`, `MaxAxisMagnitude()` and `Reduce()` are used with assumed definitions, because their source is not part of this model. The definitions are listed in the introduction.
- Restrictions.IsExposed: requires the facing to be one of the four unit directions. With a zero facing, the source's walker stays on the target cell itself. It then returns false when that cell holds anything, and loops forever when the cell is empty or missing. A longer axis facing such as (2, 0) terminates in the source but is not covered here.
- Randomness is not modelled. `Random.Range(0f, 1f)` is the `roll` parameter of `Actions.Firebolt`, and `Pawn.IsHit` is the `isHit` oracle of `ActionNodes.IsHitDo`.
- Actions.Firebolt: returns `NoDefender` and changes nothing when no pawn stands at the target. The source then dereferences null.
- `Actor.Attack` and `Actor.Accuracy` are floats in the source. Here they are integers, which is what `ActorStats` assigns. So hit chance and damage are exact, and the float cast in `ApplyDamage` does not arise.
- The `MoveAction` map is a `Formation`, whose `GetPawnAtCoordinate` stands in for the map's lookup. `BattleMap` is not part of this model, and `SetCoordinate` is an assignment of the pawn's coordinate.
- Statuses.Status.DoEffect: the poison tick `(int)(MaxHealth * 0.1f)` is a float truncation, so it is a parameter `tick` here.
- Statuses.Status.Collate: requires a stunned, poison or drowsy status. `SleepStatus`, `BurningStatus` and the base `PawnStatus.Collate` are not part of this model.
- Statuses.Status.OnApplication: requires the pawn's stats to hold a "Stunned" counter when the status is a stun. The source's indexer would throw otherwise. It also requires a status other than sleep: `SleepStatus` is only constructed (DrowsyStatus.cs:19, HibernateAction.cs:33), its hooks are not part of this model, and it may well mark its pawn incapacitated.
- Statuses.Status.OnExpired: carries the same requires as OnApplication, which a completed OnApplication establishes. A sleep status is excluded for the same reason: `SleepStatus.OnExpired` is not part of this model.
- Statuses.Status.DoEffect: requires a status other than burning or sleep. BurningStatus's effect (damage to every adjacent cell through a DoDamageNode) and SleepStatus's DoEffect are not part of this model.
- The status lifecycle is not modelled: `AddStatus`, ticking, expiry, and the loop that calls `Collate`. It lives in code that is not part of this model.
- The base `OnApplication`, `OnExpired` and `DoEffect` hooks are treated as doing nothing.
- `BurningStatus` is not modelled: it loops over a range lookup and behaviour-tree state that are not part of this model.
- The declarative action definitions are not modelled: hibernate, sacrifice, iron strike, the newer firebolt and move, frost wall and sleeping draught. They feed a resolver whose source is not part of this model, and so do their restriction and node classes.
- Engine plumbing, UI and the `Debug.Log` calls have no rule content and are not modelled: `Formation.Awake`, `ActorAppearance`, `PawnUI`, `IGridBased`, and `Actor.EndTurn`.
- TargetableCells.GetTargetableCells: its contract is stated against the pawns' positions at the call. The lazy iterator is modelled as a method that builds the whole sequence, so interleaving a partial enumeration with moves is not captured.
- TargetableCells.GetTargetableCells: where `First` finds no front-rank coordinate, the model stops with `complete = false` instead of throwing.

## Findings

| source | as written | input that shows it | evidently intended | confidence | as-written member | corrected member |
|---|---|---|---|---|---|---|
| Assets/Scripts/GridBased/Grid.cs:166-182 | The row flank is `FrontFlankCoordinate + (-Perpendicular(Forward) * row)`, while ranks step along `+Perpendicular(Forward)` from the same flank. | Forward = (1, 0), front flank (0, 0), row 1. Rank r's cells lie at (−r, i) with i >= 0. Row 1's cells lie at (−i, −1). GetRow reports 1 for the rank cells (−r, 1) and for every row-1 cell, but no row-1 cell belongs to any rank's enumeration. | Rows step to the same side as ranks, so row w of the grid is column w of the ranks, and rank r and row w meet in one cell. | medium; not executed | Grid.RankAndRowEnumerationsDisjoint | Grid.AlignedRankRowMeetOnce |
| Assets/Scripts/Status/DrowsyStatus.cs:22-29 | Collate returns `false` for an incoming Drowsy and `true` for everything else. | Collating a Drowsy with an incoming Drowsy gives `false`, so the second drowsy attaches. With an incoming Poison it gives `true`, so the poison is swallowed. | A second Drowsy is rejected (`true`) and other statuses attach normally (`false`). This follows the `true` = "do not attach" convention that StunnedStatus follows. | medium; not executed | Statuses.DrowsyAsWrittenIsInverted | Statuses.DrowsyCollateRejectsOnlyDrowsy |

=== FILE: actions.dfy ===
/** The two stand-alone actions of the original action API: FireboltAction.cs (a hit-gated attack
    on the pawn at the target position) and MoveAction.cs (move onto an empty position). */
module Actions {
  import opened Vectors
  import opened Pawns
  import opened Formations

  // ---------------------------------------------------------------- Firebolt

  /** MINIMUM_HIT_CHANCE: every attack keeps at least this chance to hit. */
  const MinimumHitChance: real := 0.1

  function RealMax(a: real, b: real): real
  {
    if a >= b then a else b
  }

  /** The chance to hit: accuracy less evasion, but never below the minimum. */
  function HitChance(accuracy: int, evasion: int): (chance: real)
    ensures chance >= MinimumHitChance && chance >= (accuracy - evasion) as real
    ensures chance == MinimumHitChance || chance == (accuracy - evasion) as real
  {
    RealMax(MinimumHitChance, (accuracy - evasion) as real)
  }

  /** IsHit with the random draw `roll` from [0, 1] given: the draw must not exceed the chance. */
  function IsHit(accuracy: int, evasion: int, roll: real): (hits: bool)
    ensures hits <==> roll <= MinimumHitChance || roll <= (accuracy - evasion) as real
  {
    roll <= HitChance(accuracy, evasion)
  }

  /** Whatever the evasion, a draw of at most the minimum chance hits. */
  lemma LowRollAlwaysHits(accuracy: int, evasion: int, roll: real)
    requires roll <= MinimumHitChance
    ensures IsHit(accuracy, evasion, roll)
  {
  }

  /** The damage dealt: attack less defense, never negative. */
  function Damage(attack: int, defense: int): (damage: int)
    ensures damage >= 0 && damage >= attack - defense
    ensures damage == 0 || damage == attack - defense
    ensures attack <= defense ==> damage == 0
  {
    if attack - defense > 0 then attack - defense else 0
  }

  /** ApplyDamage: the defender's health drops by the damage. */
  method ApplyDamage(actor: Pawn, defender: Pawn)
    modifies defender`health
    ensures defender.health == old(defender.health) - Damage(old(actor.attack), old(defender.defense))
  {
    var damage := Damage(actor.attack, defender.defense);
    defender.health := defender.health - damage;
  }

  /** What a firebolt did. A missing defender stops the action (the source dereferences it). */
  datatype FireboltOutcome = NoDefender | Missed | Hit(damage: int)

  function PawnSet(pawns: seq<Pawn>): set<Pawn>
  {
    set p | p in pawns
  }

  /** Do: find the pawn at the target position, roll to hit, and on a hit apply the damage.
      Only that pawn's health changes. */
  method Firebolt(actor: Pawn, targetFormation: Formation, targetPosition: Vec2, roll: real)
    returns (outcome: FireboltOutcome)
    requires 0.0 <= roll <= 1.0
    modifies PawnSet(targetFormation.pawns)`health
    ensures outcome.NoDefender? <==> old(GetPawnAtCoordinate(targetFormation, targetPosition)) == null
    ensures var d := old(GetPawnAtCoordinate(targetFormation, targetPosition));
      d != null ==>
        (outcome.Hit? <==> IsHit(old(actor.accuracy), old(d.evasion), roll)) &&
        (outcome.Hit? ==> outcome.damage == Damage(old(actor.attack), old(d.defense)) &&
                          d.health == old(d.health) - outcome.damage) &&
        (outcome.Missed? ==> d.health == old(d.health))
    ensures forall p :: p in targetFormation.pawns && p != old(GetPawnAtCoordinate(targetFormation, targetPosition)) ==>
      p.health == old(p.health)
    ensures actor != old(GetPawnAtCoordinate(targetFormation, targetPosition)) ==> actor.health == old(actor.health)
  {
    var defender := GetPawnAtCoordinate(targetFormation, targetPosition);
    if defender == null {
      return NoDefender;
    }
    var hitChance := RealMax(MinimumHitChance, (actor.accuracy - defender.evasion) as real);
    var hits := roll <= hitChance;
    if hits {
      var damage := Damage(actor.attack, defender.defense);
      ApplyDamage(actor, defender);
      return Hit(damage);
    }
    return Missed;
  }

  // ---------------------------------------------------------------- Move

  /** An incapacitated actor cannot act. */
  function IsActorAble(actor: Pawn): (able: bool)
    reads actor
    ensures able <==> !actor.incapacitated
  {
    !actor.incapacitated
  }

  /** The target position is free: no pawn of the map stands there. */
  function IsMoveTargetValid(targetMap: Formation, position: Vec2): (valid: bool)
    reads targetMap.pawns
    ensures valid <==> forall q :: q in targetMap.pawns ==> q.gridPosition != position
  {
    GetPawnAtCoordinate(targetMap, position) == null
  }

  lemma MoveTargetValidIffEmpty(targetMap: Formation, position: Vec2)
    ensures IsMoveTargetValid(targetMap, position) <==>
      forall i :: 0 <= i < |targetMap.pawns| ==> targetMap.pawns[i].gridPosition != position
  {
    if !IsMoveTargetValid(targetMap, position) {
      var p := GetPawnAtCoordinate(targetMap, position);
      var i :| 0 <= i < |targetMap.pawns| && targetMap.pawns[i] == p;
    }
  }

  /** Do: an able actor moves to a free target position; otherwise nothing changes. */
  method Move(actor: Pawn, targetMap: Formation, targetPosition: Vec2) returns (canDo: bool)
    modifies actor`gridPosition
    ensures canDo == old(IsActorAble(actor) && IsMoveTargetValid(targetMap, targetPosition))
    ensures canDo ==> actor.gridPosition == targetPosition
    ensures !canDo ==> actor.gridPosition == old(actor.gridPosition)
  {
    canDo := IsActorAble(actor) && IsMoveTargetValid(targetMap, targetPosition);
    if canDo {
      actor.gridPosition := targetPosition;
    }
  }
}

=== FILE: cells.dfy ===
/** Cells and formations of the cell-based API that the targeting restrictions and action nodes
    use. The revised Formation and Cell classes are not part of this model; what the modelled code
    reads of them is stated here: a formation is the rectangle [origin, origin + extent) of a grid,
    faces its grid's Forward, and looks cells up by coordinate (a coordinate without a cell gives
    null); a cell has a coordinate, its formation and an ordered list of contents. */
module Cells {
  import opened Vectors
  import opened Options
  import opened Grid
  import opened Pawns

  /** An occupant of a cell: a pawn, or anything else placed there (a summoned wall, say). */
  datatype Content = PawnContent(pawn: Pawn) | Obstacle

  datatype CellFormation = CellFormation(origin: Vec2, extent: Vec2, shape: GridShape, cells: map<Vec2, seq<Content>>)
  {
    /** A coordinate is in the formation iff it lies in [origin, origin + extent) on both axes. */
    predicate Contains(c: Vec2)
    {
      origin.x <= c.x < origin.x + extent.x && origin.y <= c.y < origin.y + extent.y
    }

    function Facing(): Vec2
    {
      shape.forward
    }

    /** Grid.GetCell: the contents of the cell at `c`, or None when the grid has no cell there. */
    function GetCell(c: Vec2): (r: Option<seq<Content>>)
      ensures r.Some? <==> c in cells
      ensures r.Some? ==> r.value == cells[c]
    {
      if c in cells then Some(cells[c]) else None
    }
  }

  datatype Cell = Cell(coordinate: Vec2, formation: CellFormation, contents: seq<Content>)

  /** Cell.GetContent<Pawn>(): the first pawn among the contents, or null. */
  function GetPawn(contents: seq<Content>): (p: Pawn?)
    ensures p != null ==> PawnContent(p) in contents
    ensures p == null <==> forall c :: c in contents ==> !c.PawnContent?
    ensures p != null ==>
      exists i :: 0 <= i < |contents| && contents[i] == PawnContent(p) &&
        forall j :: 0 <= j < i ==> !contents[j].PawnContent?
  {
    if contents == [] then null
    else if contents[0].PawnContent? then contents[0].pawn
    else GetPawn(contents[1..])
  }

  /** The pawns a list of contents holds: what an effect on the cell may change. */
  function Occupants(contents: seq<Content>): (ps: set<Pawn>)
    ensures forall p :: p in ps ==> PawnContent(p) in contents
    ensures forall c :: c in contents && c.PawnContent? ==> c.pawn in ps
  {
    set c | c in contents && c.PawnContent? :: c.pawn
  }
}

=== FILE: formations.dfy ===
/** Formation.cs: a grid of the original component API that knows the pawns placed on it. */
module Formations {
  import opened Vectors
  import opened Options
  import opened Grid
  import opened Pawns

  /** A formation: its grid geometry and the pawns collected from its children, in order. */
  datatype Formation = Formation(grid: GridShape, pawns: seq<Pawn>)

  /** The index of the first pawn of `pawns` standing at `c`. */
  function FirstIndexAt(pawns: seq<Pawn>, c: Vec2): (r: Option<nat>)
    reads pawns
    ensures r.Some? ==> r.value < |pawns| && pawns[r.value].gridPosition == c
    ensures r.Some? ==> forall j :: 0 <= j < r.value ==> pawns[j].gridPosition != c
    ensures r.None? <==> forall j :: 0 <= j < |pawns| ==> pawns[j].gridPosition != c
  {
    if pawns == [] then None
    else if pawns[0].gridPosition == c then Some(0)
    else match FirstIndexAt(pawns[1..], c)
      case None => None
      case Some(i) => Some(i + 1)
  }

  /** GetPawnAtCoordinate: the first pawn at the coordinate, or null when there is none. */
  function GetPawnAtCoordinate(f: Formation, c: Vec2): (p: Pawn?)
    reads f.pawns
    ensures p != null ==> p.gridPosition == c && p in f.pawns
    ensures p == null <==> forall q :: q in f.pawns ==> q.gridPosition != c
    ensures p != null ==>
      exists i :: 0 <= i < |f.pawns| && f.pawns[i] == p &&
        forall j :: 0 <= j < i ==> f.pawns[j].gridPosition != c
  {
    match FirstIndexAt(f.pawns, c)
    case None => null
    case Some(i) => f.pawns[i]
  }
}

=== FILE: grid.dfy ===
/** The integer geometry of a battle grid (Grid.cs): bounds, Manhattan distance and range,
    line tracing, and the rank/row decomposition relative to the grid's Forward vector.
    The world-space side of Grid.cs (cell size, bounds, world positions) is not modelled. */
module Grid {
  import opened Vectors
  import opened Subsequences

  /** What the core reads of a grid: the number of cells on each axis, the cardinal Forward
      vector and the FrontFlankCoordinate (the first cell of the front rank). The last two
      are given rather than derived from the engine transform. */
  datatype GridShape = GridShape(nCells: Vec2, forward: Vec2, frontFlank: Vec2)

  /** A grid whose Forward is one of the four unit vectors. */
  predicate Facing(g: GridShape)
  {
    Cardinal(g.forward)
  }

  // ---------------------------------------------------------------- bounds, distance, range

  function ContainsCoordinate(g: GridShape, c: Vec2): (r: bool)
    ensures r <==> 0 <= c.x < g.nCells.x && 0 <= c.y < g.nCells.y
  {
    c.x >= 0 && c.x <= g.nCells.x - 1 && c.y >= 0 && c.y <= g.nCells.y - 1
  }

  /** Number of steps between two coordinates (Manhattan distance). */
  function GetDistance(from: Vec2, to: Vec2): (r: int)
    ensures r >= 0
    ensures r == 0 <==> from == to
    ensures r >= Abs(to.x - from.x) && r >= Abs(to.y - from.y)
  {
    var delta := Sub(to, from);
    Abs(delta.x) + Abs(delta.y)
  }

  lemma DistanceSymmetric(a: Vec2, b: Vec2)
    ensures GetDistance(a, b) == GetDistance(b, a)
  {
  }

  function IsInRange(from: Vec2, to: Vec2, maxRange: int, minRange: int := 0): (r: bool)
    ensures r <==> minRange <= GetDistance(from, to) <= maxRange
    ensures maxRange < 0 ==> !r
    ensures maxRange < minRange ==> !r
  {
    var distance := GetDistance(from, to);
    distance <= maxRange && distance >= minRange
  }

  /** The reference definition of what GetCoordinatesInRange yields. */
  predicate InDiamond(g: GridShape, origin: Vec2, range: int, c: Vec2)
  {
    ContainsCoordinate(g, c) && IsInRange(origin, c, range)
  }

  /** Column x = origin.x + i of the diamond is the span origin.y ± (range - |i|). */
  lemma DiamondColumn(g: GridShape, origin: Vec2, range: int, i: int, c: Vec2)
    requires c.x == origin.x + i
    ensures InDiamond(g, origin, range, c) <==>
      ContainsCoordinate(g, c) && origin.y - (range - Abs(i)) <= c.y <= origin.y + (range - Abs(i))
  {
  }

  /** All grid coordinates within `range` steps of `origin`, column by column, each once. */
  method GetCoordinatesInRange(g: GridShape, origin: Vec2, range: int) returns (cs: seq<Vec2>)
    ensures forall c :: c in cs <==> InDiamond(g, origin, range, c)
    ensures forall j, k :: 0 <= j < k < |cs| ==> LexLess(cs[j], cs[k])
  {
    cs := [];
    var i := -range;
    while i <= range
      invariant range >= 0 ==> -range <= i <= range + 1
      invariant range < 0 ==> i == -range
      invariant forall c :: c in cs <==> InDiamond(g, origin, range, c) && c.x < origin.x + i
      invariant forall j, k :: 0 <= j < k < |cs| ==> LexLess(cs[j], cs[k])
      invariant forall j :: 0 <= j < |cs| ==> cs[j].x < origin.x + i
    {
      var x := origin.x + i;
      var startY := origin.y - (range - Abs(i));
      var endY := origin.y + (range - Abs(i));
      var y := startY;
      while y <= endY
        invariant startY <= y <= endY + 1
        invariant forall c :: c in cs <==>
          (InDiamond(g, origin, range, c) && c.x < x) || (c.x == x && startY <= c.y < y && ContainsCoordinate(g, c))
        invariant forall j, k :: 0 <= j < k < |cs| ==> LexLess(cs[j], cs[k])
        invariant forall j :: 0 <= j < |cs| ==> LexLess(cs[j], Vec2(x, y))
      {
        if ContainsCoordinate(g, Vec2(x, y)) {
          cs := cs + [Vec2(x, y)];
        }
        y := y + 1;
      }
      forall c: Vec2 | c.x == x
        ensures InDiamond(g, origin, range, c) <==> startY <= c.y < y && ContainsCoordinate(g, c)
      {
        DiamondColumn(g, origin, range, i, c);
      }
      i := i + 1;
    }
    if range < 0 {
      forall c: Vec2 | InDiamond(g, origin, range, c)
        ensures false
      {
      }
    }
  }

  // ---------------------------------------------------------------- lines

  /** The number of steps a line covers: its largest axis magnitude. */
  function LineLength(line: Vec2): nat
  {
    Max(Abs(line.x), Abs(line.y))
  }

  /** The unclipped trace origin + step·i for i in 0..n, step being the per-axis sign of `line`. */
  function Trace(origin: Vec2, line: Vec2): seq<Vec2>
  {
    seq(LineLength(line) + 1, i => Add(origin, Times(Reduce(line), i)))
  }

  /** The coordinates of `s` that lie on the grid, in their order in `s`. */
  function Clip(g: GridShape, s: seq<Vec2>): seq<Vec2>
  {
    if s == [] then []
    else if ContainsCoordinate(g, s[0]) then [s[0]] + Clip(g, s[1..])
    else Clip(g, s[1..])
  }

  /** Clipping keeps exactly the on-grid elements, in order. */
  lemma {:induction false} ClipKeepsOnGrid(g: GridShape, s: seq<Vec2>)
    ensures IsSubsequence(Clip(g, s), s)
    ensures forall c :: c in Clip(g, s) <==> c in s && ContainsCoordinate(g, c)
  {
    if s != [] {
      ClipKeepsOnGrid(g, s[1..]);
      assert forall c :: c in s <==> c == s[0] || c in s[1..];
    }
  }

  /** Clipping a suffix peels off its first element. */
  lemma ClipStep(g: GridShape, s: seq<Vec2>, k: int)
    requires 0 <= k < |s|
    ensures Clip(g, s[k..]) == (if ContainsCoordinate(g, s[k]) then [s[k]] else []) + Clip(g, s[k + 1..])
  {
    assert s[k..][1..] == s[k + 1..];
  }

  /** The reference definition of what GetCoordinatesInLine yields. */
  function LineCoordinates(g: GridShape, origin: Vec2, line: Vec2): seq<Vec2>
  {
    Clip(g, Trace(origin, line))
  }

  method GetCoordinatesInLine(g: GridShape, origin: Vec2, line: Vec2) returns (cs: seq<Vec2>)
    ensures cs == LineCoordinates(g, origin, line)
  {
    var n := Max(Abs(line.x), Abs(line.y));
    var step := Reduce(line);
    ghost var trace := Trace(origin, line);
    cs := [];
    var i := 0;
    while i <= n
      invariant 0 <= i <= n + 1
      invariant cs + Clip(g, trace[i..]) == Clip(g, trace)
    {
      var coordinate := Add(origin, Times(step, i));
      assert coordinate == trace[i];
      ClipStep(g, trace, i);
      if ContainsCoordinate(g, coordinate) {
        assert (cs + [coordinate]) + Clip(g, trace[i + 1..]) == cs + ([coordinate] + Clip(g, trace[i + 1..]));
        cs := cs + [coordinate];
      }
      i := i + 1;
    }
    assert trace[i..] == [];
  }

  /** What the line query promises: on-grid points of the trace, in trace order, at most n+1 of them. */
  lemma LineCoordinatesOnTrace(g: GridShape, origin: Vec2, line: Vec2)
    ensures var cs := LineCoordinates(g, origin, line);
      IsSubsequence(cs, Trace(origin, line)) &&
      |cs| <= LineLength(line) + 1 &&
      (forall c :: c in cs ==> (ContainsCoordinate(g, c) &&
         exists i :: 0 <= i <= LineLength(line) && c == Add(origin, Times(Reduce(line), i)))) &&
      (forall i :: 0 <= i <= LineLength(line) && ContainsCoordinate(g, Add(origin, Times(Reduce(line), i)))
         ==> Add(origin, Times(Reduce(line), i)) in cs)
  {
    var t := Trace(origin, line);
    var cs := LineCoordinates(g, origin, line);
    ClipKeepsOnGrid(g, t);
    SubsequenceMembers(cs, t);
    forall c | c in cs
      ensures exists i :: 0 <= i <= LineLength(line) && c == Add(origin, Times(Reduce(line), i))
    {
      var i :| 0 <= i < |t| && t[i] == c;
    }
    forall i | 0 <= i <= LineLength(line) && ContainsCoordinate(g, Add(origin, Times(Reduce(line), i)))
      ensures Add(origin, Times(Reduce(line), i)) in cs
    {
      assert t[i] in t;
    }
  }

  // ---------------------------------------------------------------- ranks and rows

  /** How far `c` lies behind the front flank along Forward. */
  function GetRank(g: GridShape, c: Vec2): (r: int)
    ensures r >= 0
  {
    var deltaVector := Sub(g.frontFlank, c);
    Abs(MaxAxisMagnitude(Scale(deltaVector, g.forward)))
  }

  /** How far `c` lies from the front flank along the perpendicular of Forward. */
  function GetRow(g: GridShape, c: Vec2): (r: int)
    ensures r >= 0
  {
    var deltaVector := Sub(g.frontFlank, c);
    Abs(MaxAxisMagnitude(Scale(deltaVector, Perpendicular(g.forward))))
  }

  /** The number of ranks: the grid's extent along Forward. */
  function GetNRanks(g: GridShape): (r: int)
    ensures r == GetRowDepth(g)
    ensures Facing(g) ==> r == if g.forward.x == 0 then Abs(g.nCells.y) else Abs(g.nCells.x)
  {
    var direction := Scale(g.forward, g.nCells);
    Abs(MaxAxisMagnitude(direction))
  }

  /** The number of cells in a row: the grid's extent along Forward. */
  function GetRowDepth(g: GridShape): (r: int)
    ensures r >= 0
    ensures Facing(g) ==> r == if g.forward.x == 0 then Abs(g.nCells.y) else Abs(g.nCells.x)
  {
    var fullStep := Scale(g.forward, g.nCells);
    Abs(MaxAxisMagnitude(fullStep))
  }

  /** The number of cells in a rank: the grid's extent across Forward. */
  function GetRankWidth(g: GridShape): (r: int)
    ensures r >= 0
    ensures Facing(g) ==> r == if g.forward.x == 0 then Abs(g.nCells.x) else Abs(g.nCells.y)
  {
    var fullStep := Scale(Perpendicular(g.forward), g.nCells);
    Abs(MaxAxisMagnitude(fullStep))
  }

  /** Ranks times their width cover the grid's cell count. */
  lemma RanksCoverGrid(g: GridShape)
    requires Facing(g)
    ensures GetNRanks(g) * GetRankWidth(g) == Abs(g.nCells.x) * Abs(g.nCells.y)
  {
  }

  // A step `-v * k` is written `Sub(p, Times(v, k))` below: the same vector as `Add(p, Times(Neg(v), k))`.

  /** The i-th cell of rank `rank` as GetRankCoordinates enumerates it:
      the front flank moved `rank` steps against Forward, then `i` steps along its perpendicular. */
  function RankCoordinate(g: GridShape, rank: int, i: int): Vec2
  {
    var rankFlank := Sub(g.frontFlank, Times(g.forward, rank));
    Add(rankFlank, Times(Perpendicular(g.forward), i))
  }

  /** The i-th cell of row `row` as GetRowCoordinates enumerates it (as written): the front
      flank moved `row` steps against the perpendicular, then `i` steps against Forward. */
  function RowCoordinate(g: GridShape, row: int, i: int): Vec2
  {
    var rowFlank := Sub(g.frontFlank, Times(Perpendicular(g.forward), row));
    Sub(rowFlank, Times(g.forward, i))
  }

  /** The i-th cell of row `row` stepping to the same side of the front flank as ranks do. */
  function AlignedRowCoordinate(g: GridShape, row: int, i: int): Vec2
  {
    var rowFlank := Add(g.frontFlank, Times(Perpendicular(g.forward), row));
    Sub(rowFlank, Times(g.forward, i))
  }

  function RankCoordinates(g: GridShape, rank: int): (cs: seq<Vec2>)
    ensures |cs| == GetRankWidth(g)
  {
    seq(GetRankWidth(g), i => RankCoordinate(g, rank, i))
  }

  /** Cell i of rank r has rank r and row i. */
  lemma {:induction false} RankCoordinateProjections(g: GridShape, rank: int, i: int)
    requires Facing(g) && rank >= 0 && i >= 0
    ensures GetRank(g, RankCoordinate(g, rank, i)) == rank
    ensures GetRow(g, RankCoordinate(g, rank, i)) == i
  {
    var f := g.forward;
    var c := RankCoordinate(g, rank, i);
    if f == Vec2(1, 0) {
      assert c == Vec2(g.frontFlank.x - rank, g.frontFlank.y + i);
    } else if f == Vec2(-1, 0) {
      assert c == Vec2(g.frontFlank.x + rank, g.frontFlank.y - i);
    } else if f == Vec2(0, 1) {
      assert c == Vec2(g.frontFlank.x - i, g.frontFlank.y - rank);
    } else {
      assert c == Vec2(g.frontFlank.x + i, g.frontFlank.y + rank);
    }
  }

  /** Conversely, a coordinate behind the front flank and on the side ranks are enumerated to is
      cell GetRow of rank GetRank: together with RankCoordinateProjections, (rank, row) and the
      coordinate determine each other there. */
  lemma {:induction false} RankRowRoundTrip(g: GridShape, c: Vec2)
    requires Facing(g)
    requires Dot(Sub(g.frontFlank, c), g.forward) >= 0
    requires Dot(Sub(c, g.frontFlank), Perpendicular(g.forward)) >= 0
    ensures c == RankCoordinate(g, GetRank(g, c), GetRow(g, c))
  {
    RankIsDepth(g, c);
    RowIsOffset(g, c);
    RankRowCase(g.frontFlank, c, g.forward, GetRank(g, c), GetRow(g, c));
  }

  /** Behind the front flank, the rank is the signed depth along Forward. */
  lemma RankIsDepth(g: GridShape, c: Vec2)
    requires Facing(g) && Dot(Sub(g.frontFlank, c), g.forward) >= 0
    ensures GetRank(g, c) == Dot(Sub(g.frontFlank, c), g.forward)
  {
    var d := Sub(g.frontFlank, c);
    if g.forward.x == 0 {
      assert Scale(d, g.forward) == Vec2(0, d.y * g.forward.y);
    } else {
      assert Scale(d, g.forward) == Vec2(d.x * g.forward.x, 0);
    }
  }

  /** On the rank side of the front flank, the row is the signed offset along the perpendicular. */
  lemma RowIsOffset(g: GridShape, c: Vec2)
    requires Facing(g) && Dot(Sub(c, g.frontFlank), Perpendicular(g.forward)) >= 0
    ensures GetRow(g, c) == Dot(Sub(c, g.frontFlank), Perpendicular(g.forward))
  {
    var d := Sub(g.frontFlank, c);
    var p := Perpendicular(g.forward);
    if g.forward.x == 0 {
      assert Scale(d, p) == Vec2(d.x * p.x, 0);
    } else {
      assert Scale(d, p) == Vec2(0, d.y * p.y);
    }
  }

  /** One facing of RankRowRoundTrip: the flank moved `r` against `f` and `i` along its
      perpendicular reaches `c`. */
  lemma RankRowCase(F: Vec2, c: Vec2, f: Vec2, r: int, i: int)
    requires Cardinal(f)
    requires Dot(Sub(F, c), f) == r && Dot(Sub(c, F), Perpendicular(f)) == i
    ensures Add(Sub(F, Times(f, r)), Times(Perpendicular(f), i)) == c
  {
  }


  /** Cell i of row w (as written) has row w and rank i. */
  lemma {:induction false} RowCoordinateProjections(g: GridShape, row: int, i: int)
    requires Facing(g) && row >= 0 && i >= 0
    ensures GetRow(g, RowCoordinate(g, row, i)) == row
    ensures GetRank(g, RowCoordinate(g, row, i)) == i
  {
    var F := g.frontFlank;
    if g.forward == Vec2(1, 0) {
      assert RowCoordinate(g, row, i) == Vec2(F.x - i, F.y - row);
    } else if g.forward == Vec2(-1, 0) {
      assert RowCoordinate(g, row, i) == Vec2(F.x + i, F.y + row);
    } else if g.forward == Vec2(0, 1) {
      assert RowCoordinate(g, row, i) == Vec2(F.x + row, F.y - i);
    } else {
      assert RowCoordinate(g, row, i) == Vec2(F.x - row, F.y + i);
    }
  }

  /** As written, the rank and row enumerations walk to opposite sides of the front flank:
      no cell of rank r is a cell of row w once w >= 1, although both report row w for it. */
  lemma {:induction false} RankAndRowEnumerationsDisjoint(g: GridShape, rank: int, i: int, row: int, j: int)
    requires Facing(g) && i >= 0 && row >= 1
    ensures RankCoordinate(g, rank, i) != RowCoordinate(g, row, j)
  {
    var F := g.frontFlank;
    if g.forward == Vec2(1, 0) {
      assert RankCoordinate(g, rank, i).y == F.y + i;
      assert RowCoordinate(g, row, j).y == F.y - row;
    } else if g.forward == Vec2(-1, 0) {
      assert RankCoordinate(g, rank, i).y == F.y - i;
      assert RowCoordinate(g, row, j).y == F.y + row;
    } else if g.forward == Vec2(0, 1) {
      assert RankCoordinate(g, rank, i).x == F.x - i;
      assert RowCoordinate(g, row, j).x == F.x + row;
    } else {
      assert RankCoordinate(g, rank, i).x == F.x + i;
      assert RowCoordinate(g, row, j).x == F.x - row;
    }
  }

  /** With rows stepping like ranks, rank r and row w meet in exactly one cell: cell w of the
      rank, which is cell r of the row. */
  lemma {:induction false} AlignedRankRowMeetOnce(g: GridShape, rank: int, i: int, row: int, j: int)
    requires Facing(g)
    ensures RankCoordinate(g, rank, i) == AlignedRowCoordinate(g, row, j) <==> i == row && j == rank
  {
    var f := g.forward;
    if f == Vec2(1, 0) {
      assert RankCoordinate(g, rank, i) == Vec2(g.frontFlank.x - rank, g.frontFlank.y + i);
      assert AlignedRowCoordinate(g, row, j) == Vec2(g.frontFlank.x - j, g.frontFlank.y + row);
    } else if f == Vec2(-1, 0) {
      assert RankCoordinate(g, rank, i) == Vec2(g.frontFlank.x + rank, g.frontFlank.y - i);
      assert AlignedRowCoordinate(g, row, j) == Vec2(g.frontFlank.x + j, g.frontFlank.y - row);
    } else if f == Vec2(0, 1) {
      assert RankCoordinate(g, rank, i) == Vec2(g.frontFlank.x - i, g.frontFlank.y - rank);
      assert AlignedRowCoordinate(g, row, j) == Vec2(g.frontFlank.x - row, g.frontFlank.y - j);
    } else {
      assert RankCoordinate(g, rank, i) == Vec2(g.frontFlank.x + i, g.frontFlank.y + rank);
      assert AlignedRowCoordinate(g, row, j) == Vec2(g.frontFlank.x + row, g.frontFlank.y + j);
    }
  }

  /** All cells of rank `rank`, from the flank outwards; not clipped to the grid. */
  method GetRankCoordinates(g: GridShape, rank: int) returns (cs: seq<Vec2>)
    ensures cs == RankCoordinates(g, rank)
    ensures Facing(g) && rank >= 0 ==>
      forall i :: 0 <= i < |cs| ==> GetRank(g, cs[i]) == rank && GetRow(g, cs[i]) == i
  {
    var rankFlank := Sub(g.frontFlank, Times(g.forward, rank));
    var step := Perpendicular(g.forward);
    var rankWidth := GetRankWidth(g);
    cs := [];
    for i := 0 to rankWidth
      invariant |cs| == i
      invariant forall k :: 0 <= k < i ==> cs[k] == RankCoordinate(g, rank, k)
    {
      cs := cs + [Add(rankFlank, Times(step, i))];
    }
    if Facing(g) && rank >= 0 {
      forall i | 0 <= i < |cs|
        ensures GetRank(g, cs[i]) == rank && GetRow(g, cs[i]) == i
      {
        RankCoordinateProjections(g, rank, i);
      }
    }
  }

  method GetFrontRankCoordinates(g: GridShape) returns (cs: seq<Vec2>)
    ensures cs == RankCoordinates(g, 0)
    ensures Facing(g) ==> forall c :: c in cs ==> GetRank(g, c) == 0
  {
    cs := GetRankCoordinates(g, 0);
  }

  /** All cells of row `row` (as written: stepping away from the flank's rank side). */
  method GetRowCoordinates(g: GridShape, row: int) returns (cs: seq<Vec2>)
    ensures |cs| == GetRowDepth(g)
    ensures forall i :: 0 <= i < |cs| ==> cs[i] == RowCoordinate(g, row, i)
    ensures Facing(g) && row >= 0 ==>
      forall i :: 0 <= i < |cs| ==> GetRow(g, cs[i]) == row && GetRank(g, cs[i]) == i
  {
    var rowFlank := Sub(g.frontFlank, Times(Perpendicular(g.forward), row));
    var rowDepth := GetRowDepth(g);
    cs := [];
    for i := 0 to rowDepth
      invariant |cs| == i
      invariant forall k :: 0 <= k < i ==> cs[k] == RowCoordinate(g, row, k)
    {
      cs := cs + [Sub(rowFlank, Times(g.forward, i))];
    }
    if Facing(g) && row >= 0 {
      forall i | 0 <= i < |cs|
        ensures GetRow(g, cs[i]) == row && GetRank(g, cs[i]) == i
      {
        RowCoordinateProjections(g, row, i);
      }
    }
  }

  /** Row enumeration corrected to step to the rank side of the front flank. */
  method GetAlignedRowCoordinates(g: GridShape, row: int) returns (cs: seq<Vec2>)
    ensures |cs| == GetRowDepth(g)
    ensures Facing(g) ==> forall i :: 0 <= i < |cs| ==> cs[i] == RankCoordinate(g, i, row)
  {
    var rowFlank := Add(g.frontFlank, Times(Perpendicular(g.forward), row));
    var rowDepth := GetRowDepth(g);
    cs := [];
    for i := 0 to rowDepth
      invariant |cs| == i
      invariant forall k :: 0 <= k < i ==> cs[k] == AlignedRowCoordinate(g, row, k)
    {
      cs := cs + [Sub(rowFlank, Times(g.forward, i))];
    }
    if Facing(g) {
      forall i | 0 <= i < |cs|
        ensures cs[i] == RankCoordinate(g, i, row)
      {
        AlignedRankRowMeetOnce(g, i, row, row, i);
      }
    }
  }

  // ---------------------------------------------------------------- the whole grid

  /** Every coordinate of the grid, x-major, each once. */
  method GetCoordinates(g: GridShape) returns (cs: seq<Vec2>)
    ensures forall c :: c in cs <==> ContainsCoordinate(g, c)
    ensures forall j, k :: 0 <= j < k < |cs| ==> LexLess(cs[j], cs[k])
    ensures g.nCells.x >= 0 && g.nCells.y >= 0 ==> |cs| == g.nCells.x * g.nCells.y
  {
    cs := [];
    var x := 0;
    while x < g.nCells.x
      invariant 0 <= x <= Max(g.nCells.x, 0)
      invariant forall c :: c in cs <==> ContainsCoordinate(g, c) && c.x < x
      invariant forall j, k :: 0 <= j < k < |cs| ==> LexLess(cs[j], cs[k])
      invariant forall j :: 0 <= j < |cs| ==> cs[j].x < x
      invariant |cs| == x * Max(g.nCells.y, 0)
    {
      var y := 0;
      while y < g.nCells.y
        invariant 0 <= y <= Max(g.nCells.y, 0)
        invariant forall c :: c in cs <==> ContainsCoordinate(g, c) && LexLess(c, Vec2(x, y))
        invariant forall j, k :: 0 <= j < k < |cs| ==> LexLess(cs[j], cs[k])
        invariant forall j :: 0 <= j < |cs| ==> LexLess(cs[j], Vec2(x, y))
        invariant |cs| == x * Max(g.nCells.y, 0) + y
      {
        cs := cs + [Vec2(x, y)];
        y := y + 1;
      }
      x := x + 1;
    }
  }
}

=== FILE: nodes.dfy ===
/** Action nodes: the effects an action applies to a target cell (DoDamageNode.cs,
    SetHealthNode.cs) and the hit test that gates them (IsHitNode.cs). */
module ActionNodes {
  import opened Pawns
  import opened Cells

  /** DoDamageNode's configuration; Amplifyable and Defendable default to true. */
  datatype DoDamageNode = DoDamageNode(baseDamage: int, amplifyable: bool := true, defendable: bool := true)

  /** The amount handed to TakeDamage: the base damage, amplified by the actor's power when the
      node allows it. */
  function Inflicted(node: DoDamageNode, actor: Pawn): (amount: int)
    ensures !node.amplifyable ==> amount == node.baseDamage
    ensures node.amplifyable ==> amount == actor.amplify(node.baseDamage)
  {
    if node.amplifyable then actor.amplify(node.baseDamage) else node.baseDamage
  }

  /** A node configured with only its base damage is amplifyable and defendable. */
  lemma DoDamageNodeDefaults(baseDamage: int)
    ensures DoDamageNode(baseDamage).amplifyable && DoDamageNode(baseDamage).defendable
  {
  }

  /** Do: the first pawn in the target cell takes the inflicted damage, with the node's
      Defendable flag; an empty cell is left alone. Always succeeds. */
  method DoDamage(node: DoDamageNode, actor: Pawn, target: Cell) returns (r: bool)
    modifies Occupants(target.contents)`calls
    ensures r
    ensures var defender := GetPawn(target.contents);
      defender != null ==>
        defender.calls == old(defender.calls) + [TakeDamage(Inflicted(node, actor), node.defendable)]
    ensures forall p :: p in Occupants(target.contents) && p != GetPawn(target.contents) ==> p.calls == old(p.calls)
  {
    var defender := GetPawn(target.contents);
    if defender != null {
      var inflicted := if node.amplifyable then actor.amplify(node.baseDamage) else node.baseDamage;
      defender.calls := defender.calls + [TakeDamage(inflicted, node.defendable)];
    }
    return true;
  }

  /** SetHealthNode.Do: the first pawn in the target cell has its health set to `amount`; the
      actor is not read and an empty cell is left alone. Always succeeds. */
  method SetHealthDo(amount: int, actor: Pawn?, target: Cell) returns (r: bool)
    modifies Occupants(target.contents)`calls
    ensures r
    ensures var pawn := GetPawn(target.contents);
      pawn != null ==> pawn.calls == old(pawn.calls) + [SetHealth(amount)]
    ensures forall p :: p in Occupants(target.contents) && p != GetPawn(target.contents) ==> p.calls == old(p.calls)
  {
    var pawn := GetPawn(target.contents);
    if pawn != null {
      pawn.calls := pawn.calls + [SetHealth(amount)];
    }
    return true;
  }

  /** IsHitNode.Do: the behaviour-tree state's "Cell" entry, if any, holds a pawn and that pawn's
      IsHit (an oracle here) says it is hit. */
  function IsHitDo(state: map<string, Cell>, isHit: Pawn -> bool): (r: bool)
    ensures r ==> "Cell" in state && GetPawn(state["Cell"].contents) != null && isHit(GetPawn(state["Cell"].contents))
  {
    var defender := if "Cell" in state then GetPawn(state["Cell"].contents) else null;
    if defender != null then isHit(defender) else false
  }

  /** A hit needs a cell and a pawn in it, and with a pawn present the answer is the pawn's own. */
  lemma IsHitNeedsDefender(state: map<string, Cell>, isHit: Pawn -> bool)
    ensures "Cell" !in state ==> !IsHitDo(state, isHit)
    ensures "Cell" in state && (forall c :: c in state["Cell"].contents ==> !c.PawnContent?) ==> !IsHitDo(state, isHit)
    ensures "Cell" in state && GetPawn(state["Cell"].contents) != null ==>
      IsHitDo(state, isHit) == isHit(GetPawn(state["Cell"].contents))
  {
  }
}

=== FILE: options.dfy ===
/** The optional value used for searches that may find nothing. */
module Options {

  datatype Option<T> = None | Some(value: T)
}

=== FILE: pawns.dfy ===
/** Pawns and actors: the mutable records every rule of the game reads and writes.
    Pawn.cs and Actor.cs are only partly part of this model: the fields below are those the
    modelled rules touch, and the pawn's own handlers whose bodies are not part of this model
    (TakeDamage, SetHealth, AddStatus, GetAmplifiedDamage, IsHit) are represented as
    recorded calls, a queued-status list and oracles. */
module Pawns {
  import opened Vectors

  /** The kinds of status effect a pawn can carry. */
  datatype StatusKind = Stunned | Sleep | Drowsy | Poison | Burning

  /** A status handed to Pawn.AddStatus: its kind and its Duration in turns. */
  datatype QueuedStatus = QueuedStatus(kind: StatusKind, duration: int)

  /** A call into one of the pawn's own health handlers. */
  datatype PawnCall = TakeDamage(amount: int, defendable: bool) | SetHealth(amount: int)

  /** A list of action names; assigning it shares the list rather than copying it. */
  class ActionList {
    var names: seq<string>

    constructor (names: seq<string>)
      ensures this.names == names
    {
      this.names := names;
    }
  }

  /** A pawn; `isActor` marks the pawns that are also Actors (movement, attack, actions). */
  class Pawn {
    var name: string
    var defense: int
    var evasion: int
    var maxHealth: int
    var health: int
    var priority: real
    /** GridPosition: the coordinate of the pawn on its grid. */
    var gridPosition: Vec2
    var incapacitated: bool
    /** Named counters such as "Stunned". */
    var stats: map<string, int>
    /** Statuses passed to AddStatus, in order. */
    var addedStatuses: seq<QueuedStatus>
    /** Calls made to TakeDamage and SetHealth, in order. */
    var calls: seq<PawnCall>

    const isActor: bool
    var movement: int
    var attack: int
    var accuracy: int
    var actions: ActionList?
    /** GetAmplifiedDamage: the actor's power applied to a base damage. */
    const amplify: int -> int

    constructor (isActor: bool, gridPosition: Vec2, stats: map<string, int>, amplify: int -> int)
      ensures this.isActor == isActor && this.gridPosition == gridPosition
      ensures this.stats == stats && this.amplify == amplify
      ensures addedStatuses == [] && calls == [] && !incapacitated && actions == null
    {
      this.isActor := isActor;
      this.gridPosition := gridPosition;
      this.stats := stats;
      this.amplify := amplify;
      name := "";
      defense, evasion, maxHealth, health, priority := 0, 0, 0, 0, 0.0;
      incapacitated := false;
      addedStatuses := [];
      calls := [];
      movement, attack, accuracy := 0, 0, 0;
      actions := null;
    }
  }
}

=== FILE: restrictions.dfy ===
/** Targeting restrictions: ExposedCells.cs (the view forward from a cell) and
    RankCellsRestriction.cs (rank membership). */
module Restrictions {
  import opened Vectors
  import opened Options
  import opened Grid
  import opened Pawns
  import opened Cells

  // ---------------------------------------------------------------- ExposedCells

  /** The cell at `w` hides what lies behind it: the grid has a cell there and it holds anything. */
  predicate Obscures(f: CellFormation, w: Vec2)
  {
    w in f.cells && f.cells[w] != []
  }

  /** How many steps along a cardinal `facing` a walker at `w` has before it leaves the rectangle. */
  function StepsToLeave(f: CellFormation, w: Vec2, facing: Vec2): int
  {
    if facing.x > 0 then f.origin.x + f.extent.x - w.x
    else if facing.x < 0 then w.x - f.origin.x + 1
    else if facing.y > 0 then f.origin.y + f.extent.y - w.y
    else w.y - f.origin.y + 1
  }

  /** The reference meaning of the walk from `w` on: it leaves the formation before it meets an
      obscuring cell. */
  predicate ClearFrom(f: CellFormation, w: Vec2, facing: Vec2)
    requires Cardinal(facing)
    decreases StepsToLeave(f, w, facing)
  {
    !f.Contains(w) || (!Obscures(f, w) && ClearFrom(f, Add(w, facing), facing))
  }

  /** IsTargetValid: walk from the cell in the formation's facing direction; any non-empty cell
      met before leaving the formation hides the target. The walk ends only for a cardinal facing. */
  method IsExposed(cell: Cell) returns (r: bool)
    requires Cardinal(cell.formation.Facing())
    ensures r == ClearFrom(cell.formation, Add(cell.coordinate, cell.formation.Facing()), cell.formation.Facing())
    ensures !cell.formation.Contains(Add(cell.coordinate, cell.formation.Facing())) ==> r
  {
    var formation := cell.formation;
    var facing := formation.Facing();
    var walker := Add(cell.coordinate, facing);
    while formation.Contains(walker)
      invariant ClearFrom(formation, walker, facing) == ClearFrom(formation, Add(cell.coordinate, facing), facing)
      decreases StepsToLeave(formation, walker, facing)
    {
      var obscuringCell := formation.GetCell(walker);
      if obscuringCell.Some? && obscuringCell.value != [] {
        return false;
      }
      walker := Add(walker, facing);
    }
    return true;
  }

  /** The k-th cell ahead of `c` along `facing`. */
  function Ahead(c: Vec2, facing: Vec2, k: int): Vec2
  {
    Add(c, Times(facing, k))
  }

  /** The walk from `c` stays in the formation for its first k steps. */
  predicate InsideFor(f: CellFormation, c: Vec2, facing: Vec2, k: int)
  {
    forall j :: 1 <= j <= k ==> f.Contains(Ahead(c, facing, j))
  }

  lemma AheadStep(c: Vec2, facing: Vec2, k: int)
    requires Cardinal(facing)
    ensures Ahead(Add(c, facing), facing, k) == Ahead(c, facing, k + 1)
  {
    if facing.x == 0 {
      assert Times(facing, k) == Vec2(0, facing.y * k);
      assert Times(facing, k + 1) == Vec2(0, facing.y * k + facing.y);
    } else {
      assert Times(facing, k) == Vec2(facing.x * k, 0);
      assert Times(facing, k + 1) == Vec2(facing.x * k + facing.x, 0);
    }
  }

  /** A cell is exposed exactly when no cell k >= 1 steps ahead of it, reached without leaving
      the formation, holds anything (a missing cell counts as empty). */
  lemma {:induction false} ExposedMeansClearAhead(f: CellFormation, c: Vec2, facing: Vec2)
    requires Cardinal(facing)
    ensures ClearFrom(f, Add(c, facing), facing) <==>
      forall k :: 1 <= k && InsideFor(f, c, facing, k) ==> !Obscures(f, Ahead(c, facing, k))
    decreases StepsToLeave(f, Add(c, facing), facing)
  {
    var w := Add(c, facing);
    AheadStep(c, facing, 0);
    assert Ahead(c, facing, 1) == w by { assert Times(facing, 1) == facing; }
    if f.Contains(w) {
      ExposedMeansClearAhead(f, w, facing);
      forall k | 1 <= k
        ensures InsideFor(f, c, facing, k + 1) <==> InsideFor(f, w, facing, k)
        ensures Ahead(w, facing, k) == Ahead(c, facing, k + 1)
      {
        AheadStep(c, facing, k);
        forall j | 1 <= j <= k
          ensures Ahead(w, facing, j) == Ahead(c, facing, j + 1)
        {
          AheadStep(c, facing, j);
        }
      }
      if ClearFrom(f, w, facing) {
        forall k | 1 <= k && InsideFor(f, c, facing, k)
          ensures !Obscures(f, Ahead(c, facing, k))
        {
          if k > 1 {
            assert InsideFor(f, w, facing, k - 1);
          }
        }
      } else {
        if Obscures(f, w) {
          assert InsideFor(f, c, facing, 1);
        } else {
          var k :| 1 <= k && InsideFor(f, w, facing, k) && Obscures(f, Ahead(w, facing, k));
          assert InsideFor(f, c, facing, k + 1);
        }
      }
    } else {
      assert !InsideFor(f, c, facing, 1);
      forall k | 1 <= k && InsideFor(f, c, facing, k)
        ensures false
      {
      }
    }
  }

  /** The target cell's own contents never matter: the walk starts one step ahead of it. */
  lemma {:induction false} ExposedIgnoresOwnContents(f: CellFormation, c: Vec2, facing: Vec2, contents: seq<Content>)
    requires Cardinal(facing)
    ensures ClearFrom(f.(cells := f.cells[c := contents]), Add(c, facing), facing) == ClearFrom(f, Add(c, facing), facing)
  {
    ClearAheadIgnores(f, c, Add(c, facing), facing, contents);
  }

  lemma {:induction false} ClearAheadIgnores(f: CellFormation, c: Vec2, w: Vec2, facing: Vec2, contents: seq<Content>)
    requires Cardinal(facing)
    requires StrictlyAhead(c, w, facing)
    ensures ClearFrom(f.(cells := f.cells[c := contents]), w, facing) == ClearFrom(f, w, facing)
    decreases StepsToLeave(f, w, facing)
  {
    if f.Contains(w) {
      ClearAheadIgnores(f, c, Add(w, facing), facing, contents);
    }
  }

  /** `w` lies beyond `c` along the cardinal direction `facing`. */
  predicate StrictlyAhead(c: Vec2, w: Vec2, facing: Vec2)
  {
    (facing.x > 0 && w.x > c.x) || (facing.x < 0 && w.x < c.x) ||
    (facing.y > 0 && w.y > c.y) || (facing.y < 0 && w.y < c.y)
  }

  /** A coordinate the grid has no cell for blocks the view exactly as an empty cell does. */
  lemma {:induction false} MissingCellIsEmpty(f: CellFormation, v: Vec2, w: Vec2, facing: Vec2)
    requires Cardinal(facing)
    ensures ClearFrom(f.(cells := f.cells - {v}), w, facing) == ClearFrom(f.(cells := f.cells[v := []]), w, facing)
    decreases StepsToLeave(f, w, facing)
  {
    if f.Contains(w) {
      MissingCellIsEmpty(f, v, Add(w, facing), facing);
    }
  }

  // ---------------------------------------------------------------- RankCellsRestriction

  /** IsTargetValid: the cell's rank in its formation is one of `ranks` (the actor is not read). */
  function RankCellsValid(ranks: seq<int>, actor: Pawn?, cell: Cell): (r: bool)
    ensures r <==> exists i :: 0 <= i < |ranks| && ranks[i] == GetRank(cell.formation.shape, cell.coordinate)
  {
    GetRank(cell.formation.shape, cell.coordinate) in ranks
  }

  /** With the default empty list of ranks every cell is rejected. */
  lemma RankCellsDefaultRejects(actor: Pawn?, cell: Cell)
    ensures !RankCellsValid([], actor, cell)
  {
  }

  /** Allowing more ranks never rejects a cell that was accepted. */
  lemma RankCellsMonotone(ranks: seq<int>, more: seq<int>, actor: Pawn?, cell: Cell)
    requires forall r :: r in ranks ==> r in more
    ensures RankCellsValid(ranks, actor, cell) ==> RankCellsValid(more, actor, cell)
  {
  }

  /** The acting pawn does not influence the answer. */
  lemma RankCellsIgnoresActor(ranks: seq<int>, a: Pawn?, b: Pawn?, cell: Cell)
    ensures RankCellsValid(ranks, a, cell) == RankCellsValid(ranks, b, cell)
  {
  }
}

=== FILE: stats.dfy ===
/** PawnStats.cs and ActorStats.cs: stat assets copied onto a pawn when it is set up. */
module Stats {
  import opened Pawns

  /** A PawnStats asset. */
  datatype PawnStats = PawnStats(name: string, priority: real, defense: int, evasion: int, maxHealth: int)

  /** An ActorStats asset: the pawn stats plus what only actors have. */
  datatype ActorStats = ActorStats(base: PawnStats, movement: int, attack: int, accuracy: int, actions: ActionList?)

  /** The pawn fields SetStats writes, as a value. */
  datatype PawnRecord = PawnRecord(
    name: string, defense: int, evasion: int, maxHealth: int, health: int, priority: real,
    movement: int, attack: int, accuracy: int, actions: ActionList?)

  function Record(p: Pawn): PawnRecord
    reads p
  {
    PawnRecord(p.name, p.defense, p.evasion, p.maxHealth, p.health, p.priority,
               p.movement, p.attack, p.accuracy, p.actions)
  }

  /** The pawn after PawnStats.SetStats: the asset's values, full health, actor fields untouched. */
  function ApplyPawnStats(s: PawnStats, r: PawnRecord): PawnRecord
  {
    r.(name := s.name, defense := s.defense, evasion := s.evasion, maxHealth := s.maxHealth,
       health := s.maxHealth, priority := s.priority)
  }

  /** The pawn after ActorStats.SetStats: the base stats, then, for an actor, its own fields. */
  function ApplyActorStats(s: ActorStats, isActor: bool, r: PawnRecord): PawnRecord
  {
    var b := ApplyPawnStats(s.base, r);
    if isActor then b.(movement := s.movement, attack := s.attack, accuracy := s.accuracy, actions := s.actions)
    else b
  }

  lemma PawnStatsResult(s: PawnStats, r: PawnRecord)
    ensures var q := ApplyPawnStats(s, r);
      q.name == s.name && q.defense == s.defense && q.evasion == s.evasion &&
      q.maxHealth == s.maxHealth && q.priority == s.priority && q.health == q.maxHealth &&
      q.movement == r.movement && q.attack == r.attack && q.accuracy == r.accuracy && q.actions == r.actions
  {
  }

  lemma ActorStatsResult(s: ActorStats, isActor: bool, r: PawnRecord)
    ensures var q := ApplyActorStats(s, isActor, r);
      q.name == s.base.name && q.health == s.base.maxHealth &&
      (isActor ==> q.movement == s.movement && q.attack == s.attack && q.accuracy == s.accuracy && q.actions == s.actions) &&
      (!isActor ==> q == ApplyPawnStats(s.base, r))
  {
  }

  /** Setting the same stats twice leaves the pawn as setting them once. */
  lemma SetStatsIdempotent(s: ActorStats, isActor: bool, r: PawnRecord)
    ensures ApplyPawnStats(s.base, ApplyPawnStats(s.base, r)) == ApplyPawnStats(s.base, r)
    ensures ApplyActorStats(s, isActor, ApplyActorStats(s, isActor, r)) == ApplyActorStats(s, isActor, r)
  {
  }

  /** PawnStats.SetStats. */
  method SetPawnStats(s: PawnStats, pawn: Pawn)
    modifies pawn`name, pawn`defense, pawn`evasion, pawn`maxHealth, pawn`health, pawn`priority
    ensures Record(pawn) == ApplyPawnStats(s, old(Record(pawn)))
  {
    pawn.name := s.name;
    pawn.defense := s.defense;
    pawn.evasion := s.evasion;
    pawn.maxHealth := s.maxHealth;
    pawn.health := s.maxHealth;
    pawn.priority := s.priority;
  }

  /** ActorStats.SetStats: the Actions list is shared with the asset, not copied. */
  method SetActorStats(s: ActorStats, pawn: Pawn)
    modifies pawn`name, pawn`defense, pawn`evasion, pawn`maxHealth, pawn`health, pawn`priority
    modifies pawn`movement, pawn`attack, pawn`accuracy, pawn`actions
    ensures Record(pawn) == ApplyActorStats(s, pawn.isActor, old(Record(pawn)))
    ensures pawn.isActor ==> pawn.actions == s.actions
  {
    SetPawnStats(s.base, pawn);
    if pawn.isActor {
      pawn.movement := s.movement;
      pawn.attack := s.attack;
      pawn.accuracy := s.accuracy;
      pawn.actions := s.actions;
    }
  }
}

=== FILE: statuses.dfy ===
/** Status effects: the Collate rules of StunnedStatus.cs, PoisonStatus.cs and DrowsyStatus.cs and
    the hooks they override. Collate decides what happens when a new status reaches a pawn that
    already carries this one: `true` means the newcomer is not attached on its own (it was merged
    into this status or this status blocks it), `false` means it attaches normally. */
module Statuses {
  import opened Vectors
  import opened Pawns

  /** The result of a Collate call: whether the incoming status is absorbed, and the existing
      status's Duration afterwards. */
  datatype Collation = Collation(absorbed: bool, duration: int)

  // ---------------------------------------------------------------- the rules as values

  /** StunnedStatus.Collate: stuns stack to the longer duration; sleep and drowsiness are
      blocked while stunned; anything else is let through. */
  function StunnedCollate(duration: int, incoming: StatusKind, incomingDuration: int): (c: Collation)
    ensures c.absorbed <==> incoming == Stunned || incoming == Sleep || incoming == Drowsy
    ensures c.duration >= duration
    ensures incoming == Stunned ==> c.duration >= incomingDuration
    ensures incoming != Stunned ==> c.duration == duration
  {
    if incoming == Stunned then Collation(true, Max(duration, incomingDuration))
    else if incoming == Sleep || incoming == Drowsy then Collation(true, duration)
    else Collation(false, duration)
  }

  /** PoisonStatus.Collate: poisons stack by adding their durations. */
  function PoisonCollate(duration: int, incoming: StatusKind, incomingDuration: int): (c: Collation)
    ensures c.absorbed <==> incoming == Poison
    ensures incoming != Poison ==> c.duration == duration
    ensures incoming == Poison ==> c.duration - duration == incomingDuration
  {
    if incoming == Poison then Collation(true, duration + incomingDuration)
    else Collation(false, duration)
  }

  /** DrowsyStatus.Collate as written: an incoming Drowsy is let through and every other
      incoming status is absorbed. */
  function DrowsyCollateAsWritten(duration: int, incoming: StatusKind): (c: Collation)
    ensures c.absorbed <==> incoming != Drowsy
    ensures c.duration == duration
  {
    if incoming == Drowsy then Collation(false, duration) else Collation(true, duration)
  }

  /** The intended DrowsyStatus.Collate: a second Drowsy is rejected, anything else
      attaches normally. */
  function DrowsyCollate(duration: int, incoming: StatusKind): Collation
  {
    if incoming == Drowsy then Collation(true, duration) else Collation(false, duration)
  }

  /** The kinds whose Collate is part of this model (SleepStatus and BurningStatus inherit the
      base Collate, which is not). */
  predicate Collates(kind: StatusKind)
  {
    kind == Stunned || kind == Poison || kind == Drowsy
  }

  /** Each kind's Collate as its source writes it, the Drowsy rule included (DrowsyCollate is
      the corrected rule, kept beside it). */
  function CollateRule(kind: StatusKind, duration: int, incoming: StatusKind, incomingDuration: int): Collation
    requires Collates(kind)
  {
    match kind
    case Stunned => StunnedCollate(duration, incoming, incomingDuration)
    case Poison => PoisonCollate(duration, incoming, incomingDuration)
    case Drowsy => DrowsyCollateAsWritten(duration, incoming)
  }

  // ---------------------------------------------------------------- what the rules promise

  /** A stun absorbs exactly stuns, sleep and drowsiness, and keeps the longer of two stuns. */
  lemma StunnedCollateOutcome(duration: int, incoming: StatusKind, incomingDuration: int)
    ensures var c := StunnedCollate(duration, incoming, incomingDuration);
      (c.absorbed <==> incoming == Stunned || incoming == Sleep || incoming == Drowsy) &&
      c.duration >= duration &&
      (incoming == Stunned ==> c.duration >= incomingDuration && (c.duration == duration || c.duration == incomingDuration)) &&
      (incoming != Stunned ==> c.duration == duration)
  {
  }

  /** Collating the same stun a second time changes nothing more. */
  lemma StunnedCollateIdempotent(duration: int, incomingDuration: int)
    ensures var once := StunnedCollate(duration, Stunned, incomingDuration);
      StunnedCollate(once.duration, Stunned, incomingDuration) == once
  {
  }

  /** Two incoming stuns leave the same duration whichever arrives first. */
  lemma StunnedCollateOrderIrrelevant(duration: int, a: int, b: int)
    ensures StunnedCollate(StunnedCollate(duration, Stunned, a).duration, Stunned, b) ==
            StunnedCollate(StunnedCollate(duration, Stunned, b).duration, Stunned, a)
  {
  }

  /** A stun of 2 met by a stun of 5 becomes one stun of 5; a stunned pawn turns drowsiness away. */
  lemma StunnedExamples()
    ensures StunnedCollate(2, Stunned, 5) == Collation(true, 5)
    ensures StunnedCollate(2, Drowsy, 1).absorbed
  {
  }

  /** Poison absorbs exactly poison, and collating a then b equals collating a + b at once. */
  lemma PoisonCollateAccumulates(duration: int, incoming: StatusKind, a: int, b: int)
    ensures PoisonCollate(duration, incoming, a).absorbed <==> incoming == Poison
    ensures incoming != Poison ==> PoisonCollate(duration, incoming, a).duration == duration
    ensures PoisonCollate(PoisonCollate(duration, Poison, a).duration, Poison, b) ==
            PoisonCollate(duration, Poison, a + b)
  {
  }

  /** A poison of non-negative duration never shortens the existing one. */
  lemma PoisonCollateNeverShortens(duration: int, incoming: StatusKind, incomingDuration: int)
    requires incomingDuration >= 0
    ensures PoisonCollate(duration, incoming, incomingDuration).duration >= duration
  {
  }

  /** As written, a drowsy pawn accepts a second Drowsy and swallows every other status,
      a poison for instance. */
  lemma DrowsyAsWrittenIsInverted(duration: int, incoming: StatusKind)
    ensures DrowsyCollateAsWritten(duration, incoming).absorbed <==> incoming != Drowsy
    ensures DrowsyCollateAsWritten(duration, incoming).duration == duration
    ensures !DrowsyCollateAsWritten(duration, Drowsy).absorbed
    ensures DrowsyCollateAsWritten(duration, Poison).absorbed
    ensures DrowsyCollateAsWritten(duration, Stunned).absorbed
  {
  }

  /** The intended rule rejects exactly a second Drowsy and never touches the duration. */
  lemma DrowsyCollateRejectsOnlyDrowsy(duration: int, incoming: StatusKind)
    ensures DrowsyCollate(duration, incoming).absorbed <==> incoming == Drowsy
    ensures DrowsyCollate(duration, incoming).duration == duration
    ensures DrowsyCollate(duration, incoming).absorbed == !DrowsyCollateAsWritten(duration, incoming).absorbed
  {
  }

  /** `Stats[name].Value += delta`. */
  function AdjustStat(stats: map<string, int>, name: string, delta: int): (r: map<string, int>)
    requires name in stats
    ensures name in r && r[name] == stats[name] + delta
    ensures r.Keys == stats.Keys
    ensures forall k :: k in stats && k != name ==> r[k] == stats[k]
  {
    stats[name := stats[name] + delta]
  }

  /** Applying a stun and letting it expire restores the pawn's "Stunned" counter. */
  lemma StunCounterRestored(stats: map<string, int>)
    requires "Stunned" in stats
    ensures AdjustStat(AdjustStat(stats, "Stunned", 1), "Stunned", -1) == stats
  {
  }

  // ---------------------------------------------------------------- the status objects

  /** A status attached to a pawn; `sleepDuration` is DrowsyStatus.SleepDuration. */
  class Status {
    const kind: StatusKind
    var duration: int
    const sleepDuration: int
    const pawn: Pawn

    constructor (kind: StatusKind, duration: int, sleepDuration: int, pawn: Pawn)
      ensures this.kind == kind && this.duration == duration
      ensures this.sleepDuration == sleepDuration && this.pawn == pawn
    {
      this.kind := kind;
      this.duration := duration;
      this.sleepDuration := sleepDuration;
      this.pawn := pawn;
    }

    /** Collate with an incoming status, as each kind's source writes it; only this status's
        Duration may change. */
    method Collate(other: Status) returns (absorbed: bool)
      requires Collates(kind)
      modifies this`duration
      ensures Collation(absorbed, duration) == CollateRule(kind, old(duration), other.kind, old(other.duration))
    {
      match kind
      case Stunned =>
        if other.kind == Stunned {
          duration := Max(duration, other.duration);
          return true;
        } else if other.kind == Sleep || other.kind == Drowsy {
          return true;
        }
        return false;
      case Poison =>
        if other.kind == Poison {
          duration := duration + other.duration;
          return true;
        }
        return false;
      case Drowsy =>
        return other.kind != Drowsy;
    }

    /** OnApplication: a stun raises the pawn's "Stunned" counter. SleepStatus's hooks are not
        part of this model, so a sleep status is excluded. */
    method OnApplication()
      requires kind != Sleep
      requires kind == Stunned ==> "Stunned" in pawn.stats
      modifies pawn`stats
      ensures kind == Stunned ==> pawn.stats == AdjustStat(old(pawn.stats), "Stunned", 1)
      ensures kind != Stunned ==> pawn.stats == old(pawn.stats)
    {
      if kind == Stunned {
        pawn.stats := AdjustStat(pawn.stats, "Stunned", 1);
      }
    }

    /** OnExpired: a stun lowers the "Stunned" counter; drowsiness puts the pawn to sleep for
        SleepDuration turns. */
    method OnExpired()
      requires kind != Sleep
      requires kind == Stunned ==> "Stunned" in pawn.stats
      modifies pawn`stats, pawn`addedStatuses
      ensures kind == Stunned ==> pawn.stats == AdjustStat(old(pawn.stats), "Stunned", -1)
      ensures kind != Stunned ==> pawn.stats == old(pawn.stats)
      ensures kind == Drowsy ==> pawn.addedStatuses == old(pawn.addedStatuses) + [QueuedStatus(Sleep, sleepDuration)]
      ensures kind != Drowsy ==> pawn.addedStatuses == old(pawn.addedStatuses)
    {
      if kind == Stunned {
        pawn.stats := AdjustStat(pawn.stats, "Stunned", -1);
      } else if kind == Drowsy {
        pawn.addedStatuses := pawn.addedStatuses + [QueuedStatus(Sleep, sleepDuration)];
      }
    }

    /** DoEffect: poison takes `tick` health each turn (the source's tick is a truncated tenth of
        MaxHealth, given here). */
    method DoEffect(tick: int)
      requires kind != Burning && kind != Sleep
      modifies pawn`health
      ensures kind == Poison ==> pawn.health == old(pawn.health) - tick
      ensures kind != Poison ==> pawn.health == old(pawn.health)
    {
      if kind == Poison {
        pawn.health := pawn.health - tick;
      }
    }
  }
}

=== FILE: subsequences.dfy ===
/** Order-preserving selection from a sequence: the relation between a lazily filtered
    enumeration and the enumeration it filters. */
module Subsequences {

  /** `a` can be obtained from `b` by deleting elements, keeping the order of the rest. */
  predicate IsSubsequence<T(==)>(a: seq<T>, b: seq<T>)
    decreases |b|
  {
    a == [] ||
    (b != [] &&
      ((a[0] == b[0] && IsSubsequence(a[1..], b[1..])) || IsSubsequence(a, b[1..])))
  }

  lemma {:induction false} SubsequenceMembers<T>(a: seq<T>, b: seq<T>)
    requires IsSubsequence(a, b)
    ensures |a| <= |b|
    ensures forall x :: x in a ==> x in b
    decreases |b|
  {
    if a != [] {
      if a[0] == b[0] && IsSubsequence(a[1..], b[1..]) {
        SubsequenceMembers(a[1..], b[1..]);
        assert forall x :: x in a ==> x == a[0] || x in a[1..];
      } else {
        SubsequenceMembers(a, b[1..]);
      }
    }
  }

  lemma {:induction false} SubsequenceTransitive<T>(a: seq<T>, b: seq<T>, c: seq<T>)
    requires IsSubsequence(a, b) && IsSubsequence(b, c)
    ensures IsSubsequence(a, c)
    decreases |c|
  {
    if a == [] {
    } else if b == [] {
    } else if IsSubsequence(b, c[1..]) {
      SubsequenceTransitive(a, b, c[1..]);
    } else {
      assert b[0] == c[0] && IsSubsequence(b[1..], c[1..]);
      if a[0] == b[0] && IsSubsequence(a[1..], b[1..]) {
        SubsequenceTransitive(a[1..], b[1..], c[1..]);
      } else {
        SubsequenceTransitive(a, b[1..], c[1..]);
      }
    }
  }
}

=== FILE: targetable.dfy ===
/** LinearExposedCells.cs: the cells an action can reach by firing straight back through each
    target formation from its front rank, stopping at the first valid occupied cell. */
module TargetableCells {
  import opened Vectors
  import opened Options
  import opened Subsequences
  import opened Grid
  import opened Pawns
  import opened Formations

  /** The LINQ First over the front rank: the first coordinate sharing x or y with `p`. */
  function FirstSharingAxis(cs: seq<Vec2>, p: Vec2): (r: Option<nat>)
    ensures r.Some? ==> r.value < |cs| && (cs[r.value].x == p.x || cs[r.value].y == p.y)
    ensures r.Some? ==> forall j :: 0 <= j < r.value ==> cs[j].x != p.x && cs[j].y != p.y
    ensures r.None? <==> forall j :: 0 <= j < |cs| ==> cs[j].x != p.x && cs[j].y != p.y
  {
    if cs == [] then None
    else if cs[0].x == p.x || cs[0].y == p.y then Some(0)
    else match FirstSharingAxis(cs[1..], p)
      case None => None
      case Some(i) => Some(i + 1)
  }

  /** The direction away from the front rank: -Forward scaled by the grid's size. */
  function Backwards(f: Formation): Vec2
  {
    Scale(Neg(f.grid.forward), f.grid.nCells)
  }

  predicate Occupied(f: Formation, c: Vec2)
    reads f.pawns
  {
    GetPawnAtCoordinate(f, c) != null
  }

  /** The inner loop: the valid coordinates of `line`, up to and including the first one that is
      both valid and occupied. */
  function ScanLine(f: Formation, line: seq<Vec2>, valid: (Formation, Vec2) -> bool): seq<Vec2>
    reads f.pawns
  {
    if line == [] then []
    else if !valid(f, line[0]) then ScanLine(f, line[1..], valid)
    else if Occupied(f, line[0]) then [line[0]]
    else [line[0]] + ScanLine(f, line[1..], valid)
  }

  /** The valid coordinates of `line`, in order. */
  function ValidOnly(f: Formation, line: seq<Vec2>, valid: (Formation, Vec2) -> bool): seq<Vec2>
  {
    if line == [] then []
    else if valid(f, line[0]) then [line[0]] + ValidOnly(f, line[1..], valid)
    else ValidOnly(f, line[1..], valid)
  }

  /** What one formation's scan yields: valid coordinates of the line in line order, all but the
      last of them unoccupied. */
  lemma {:induction false} ScanLineShape(f: Formation, line: seq<Vec2>, valid: (Formation, Vec2) -> bool)
    ensures var s := ScanLine(f, line, valid);
      IsSubsequence(s, line) &&
      (forall c :: c in s ==> valid(f, c)) &&
      (forall i :: 0 <= i < |s| - 1 ==> !Occupied(f, s[i]))
  {
    if line != [] {
      ScanLineShape(f, line[1..], valid);
      var s := ScanLine(f, line, valid);
      if valid(f, line[0]) && !Occupied(f, line[0]) {
        assert s[1..] == ScanLine(f, line[1..], valid);
        assert forall c :: c in s ==> c == line[0] || c in s[1..];
      }
    }
  }

  /** Only a valid occupied cell stops the scan: occupied cells that are not valid targets are
      passed over, and without a valid occupied cell the scan yields every valid coordinate. */
  lemma {:induction false} ScanStopsOnlyAtValidOccupied(f: Formation, line: seq<Vec2>, valid: (Formation, Vec2) -> bool)
    requires forall c :: c in line ==> !(valid(f, c) && Occupied(f, c))
    ensures ScanLine(f, line, valid) == ValidOnly(f, line, valid)
  {
    if line != [] {
      assert forall c :: c in line[1..] ==> c in line;
      ScanStopsOnlyAtValidOccupied(f, line[1..], valid);
    }
  }

  /** With a valid occupied cell at `k` and none before it, the scan yields exactly the valid
      coordinates of the line up to and including `k`: invalid occupied cells before it are
      passed over, and nothing after it is reached. */
  lemma {:induction false} ScanStopsAtFirstValidOccupied(f: Formation, line: seq<Vec2>, valid: (Formation, Vec2) -> bool, k: nat)
    requires k < |line| && valid(f, line[k]) && Occupied(f, line[k])
    requires forall j :: 0 <= j < k ==> !(valid(f, line[j]) && Occupied(f, line[j]))
    ensures ScanLine(f, line, valid) == ValidOnly(f, line[..k + 1], valid)
  {
    var prefix := line[..k + 1];
    assert prefix[0] == line[0];
    if k == 0 {
      assert prefix[1..] == [];
    } else {
      ScanStopsAtFirstValidOccupied(f, line[1..], valid, k - 1);
      assert line[1..][..k] == prefix[1..];
    }
  }

  /** Every yielded coordinate of a formation lies on the trace from `start` away from the front. */
  lemma ScanOnTrace(f: Formation, start: Vec2, valid: (Formation, Vec2) -> bool)
    ensures IsSubsequence(ScanLine(f, LineCoordinates(f.grid, start, Backwards(f)), valid),
                          Trace(start, Backwards(f)))
  {
    var line := LineCoordinates(f.grid, start, Backwards(f));
    ScanLineShape(f, line, valid);
    ClipKeepsOnGrid(f.grid, Trace(start, Backwards(f)));
    SubsequenceTransitive(ScanLine(f, line, valid), line, Trace(start, Backwards(f)));
  }

  function Tag(f: Formation, cs: seq<Vec2>): (r: seq<(Formation, Vec2)>)
    ensures |r| == |cs| && forall i :: 0 <= i < |r| ==> r[i] == (f, cs[i])
  {
    seq(|cs|, i requires 0 <= i < |cs| => (f, cs[i]))
  }

  /** The pawns of all the formations: what the scans read. */
  function PawnsOf(formations: seq<Formation>): set<Pawn>
  {
    set f, p | f in formations && p in f.pawns :: p
  }

  /** One formation's targets, or None when no front-rank coordinate shares an axis with the
      actor (First throws). */
  function FormationTargets(f: Formation, actorPosition: Vec2, valid: (Formation, Vec2) -> bool): (r: Option<seq<Vec2>>)
    reads f.pawns
  {
    var front := RankCoordinates(f.grid, 0);
    match FirstSharingAxis(front, actorPosition)
    case None => None
    case Some(i) => Some(ScanLine(f, LineCoordinates(f.grid, front[i], Backwards(f)), valid))
  }

  /** The reference meaning of GetTargetableCells: the targets of each formation in turn, and
      whether the enumeration ran to the end. */
  function TargetScan(formations: seq<Formation>, actorPosition: Vec2, valid: (Formation, Vec2) -> bool)
    : (r: (seq<(Formation, Vec2)>, bool))
    reads PawnsOf(formations)
  {
    if formations == [] then ([], true)
    else
      assert forall p :: p in formations[0].pawns ==> p in PawnsOf(formations);
      assert PawnsOf(formations[1..]) <= PawnsOf(formations) by {
        forall p | p in PawnsOf(formations[1..]) ensures p in PawnsOf(formations) {
          var f :| f in formations[1..] && p in f.pawns;
          assert f in formations;
        }
      }
      match FormationTargets(formations[0], actorPosition, valid)
      case None => ([], false)
      case Some(here) =>
        var rest := TargetScan(formations[1..], actorPosition, valid);
        (Tag(formations[0], here) + rest.0, rest.1)
  }

  /** Every yielded pair is a valid target. */
  lemma {:induction false} TargetScanValid(formations: seq<Formation>, actorPosition: Vec2, valid: (Formation, Vec2) -> bool)
    ensures forall t :: t in TargetScan(formations, actorPosition, valid).0 ==> valid(t.0, t.1)
  {
    if formations != [] {
      var f := formations[0];
      var front := RankCoordinates(f.grid, 0);
      match FirstSharingAxis(front, actorPosition)
      case None =>
      case Some(i) =>
        var s := ScanLine(f, LineCoordinates(f.grid, front[i], Backwards(f)), valid);
        ScanLineShape(f, LineCoordinates(f.grid, front[i], Backwards(f)), valid);
        TargetScanValid(formations[1..], actorPosition, valid);
        forall t | t in Tag(f, s) ensures valid(t.0, t.1) {
          var k :| 0 <= k < |s| && Tag(f, s)[k] == t;
          assert s[k] in s;
        }
    }
  }

  /** Formations are handled in the order given: scanning a list is scanning its parts in turn. */
  lemma {:induction false} TargetScanAppend(a: seq<Formation>, b: seq<Formation>, actorPosition: Vec2, valid: (Formation, Vec2) -> bool)
    requires TargetScan(a, actorPosition, valid).1
    ensures TargetScan(a + b, actorPosition, valid) ==
      (TargetScan(a, actorPosition, valid).0 + TargetScan(b, actorPosition, valid).0, TargetScan(b, actorPosition, valid).1)
  {
    if a == [] {
      assert a + b == b;
      var tail := TargetScan(b, actorPosition, valid);
      assert TargetScan(a, actorPosition, valid) == ([], true);
      assert [] + tail.0 == tail.0;
    } else {
      assert (a + b)[0] == a[0] && (a + b)[1..] == a[1..] + b;
      var here := FormationTargets(a[0], actorPosition, valid);
      assert here.Some?;
      TargetScanAppend(a[1..], b, actorPosition, valid);
      var rest := TargetScan(a[1..], actorPosition, valid);
      var tail := TargetScan(b, actorPosition, valid);
      var both := TargetScan(a[1..] + b, actorPosition, valid);
      var h := Tag(a[0], here.value);
      assert TargetScan(a, actorPosition, valid) == (h + rest.0, rest.1);
      assert both == (rest.0 + tail.0, tail.1);
      assert TargetScan(a + b, actorPosition, valid) == (h + both.0, both.1);
      assert h + (rest.0 + tail.0) == (h + rest.0) + tail.0;
    }
  }

  /** GetTargetableCells: for each formation, find the first front-rank coordinate sharing an axis
      with the actor, trace a line from it to the back of the grid and yield the valid
      coordinates up to the first valid occupied one. `complete` is false when the enumeration
      stopped because no front-rank coordinate shares an axis with the actor. The method changes
      nothing; its result is stated against the pawns' positions at the call. */
  method GetTargetableCells(formations: seq<Formation>, actor: Pawn, valid: (Formation, Vec2) -> bool)
    returns (targets: seq<(Formation, Vec2)>, complete: bool)
    ensures (targets, complete) == old(TargetScan(formations, actor.gridPosition, valid))
  {
    var position := actor.gridPosition;
    targets := [];
    var n := 0;
    assert formations[n..] == formations;
    assert targets + TargetScan(formations, position, valid).0 == TargetScan(formations, position, valid).0;
    while n < |formations|
      invariant 0 <= n <= |formations|
      invariant old(TargetScan(formations, position, valid)) ==
        (targets + old(TargetScan(formations[n..], position, valid)).0, old(TargetScan(formations[n..], position, valid)).1)
    {
      var formation := formations[n];
      assert formations[n..][0] == formation && formations[n..][1..] == formations[n + 1..];
      var here := ScanFormation(formation, position, valid);
      assert here == old(FormationTargets(formation, position, valid));
      ghost var rest := old(TargetScan(formations[n + 1..], position, valid));
      if here.None? {
        assert old(TargetScan(formations[n..], position, valid)) == ([], false);
        assert targets + [] == targets;
        complete := false;
        return;
      }
      var tagged := Tag(formation, here.value);
      assert old(TargetScan(formations[n..], position, valid)) == (tagged + rest.0, rest.1);
      assert targets + (tagged + rest.0) == (targets + tagged) + rest.0;
      targets := targets + tagged;
      n := n + 1;
    }
    assert formations[n..] == [];
    assert targets + [] == targets;
    complete := true;
  }

  /** The body of the outer loop for one formation: None where First finds no coordinate. */
  method ScanFormation(formation: Formation, position: Vec2, valid: (Formation, Vec2) -> bool)
    returns (here: Option<seq<Vec2>>)
    ensures here == FormationTargets(formation, position, valid)
  {
    var front := GetFrontRankCoordinates(formation.grid);
    var k := 0;
    while k < |front| && !(front[k].x == position.x || front[k].y == position.y)
      invariant 0 <= k <= |front|
      invariant forall j :: 0 <= j < k ==> front[j].x != position.x && front[j].y != position.y
    {
      k := k + 1;
    }
    if k == |front| {
      return None;
    }
    var closestCoordinate := front[k];
    var directionCoordinate := Scale(Neg(formation.grid.forward), formation.grid.nCells);
    var line := GetCoordinatesInLine(formation.grid, closestCoordinate, directionCoordinate);
    var yielded := ScanCoordinates(formation, line, valid);
    return Some(yielded);
  }

  /** The inner loop: yield valid coordinates, breaking after the first valid occupied one. */
  method ScanCoordinates(formation: Formation, line: seq<Vec2>, valid: (Formation, Vec2) -> bool)
    returns (yielded: seq<Vec2>)
    ensures yielded == ScanLine(formation, line, valid)
  {
    yielded := [];
    var i := 0;
    while i < |line|
      invariant 0 <= i <= |line|
      invariant yielded + ScanLine(formation, line[i..], valid) == ScanLine(formation, line, valid)
    {
      var coordinate := line[i];
      assert line[i..][0] == coordinate && line[i..][1..] == line[i + 1..];
      if valid(formation, coordinate) {
        yielded := yielded + [coordinate];
        var occupied := GetPawnAtCoordinate(formation, coordinate) != null;
        if occupied {
          break;
        }
      }
      i := i + 1;
    }
  }
}

=== FILE: vectors.dfy ===
/** Integer 2-vectors (Unity's Vector2Int) and the vector helpers the grid code relies on.
    Perpendicular, MaxAxisMagnitude and Reduce are extension methods whose source is not part
    of this model; their definitions here are stated assumptions (see README). */
module Vectors {

  datatype Vec2 = Vec2(x: int, y: int)

  function Abs(n: int): (r: nat)
    ensures r == n || r == -n
  {
    if n < 0 then -n else n
  }

  function Max(a: int, b: int): (r: int)
    ensures r >= a && r >= b && (r == a || r == b)
  {
    if a >= b then a else b
  }

  function Sign(n: int): (r: int)
    ensures n > 0 ==> r == 1
    ensures n < 0 ==> r == -1
    ensures n == 0 ==> r == 0
  {
    if n > 0 then 1 else if n < 0 then -1 else 0
  }

  function Add(a: Vec2, b: Vec2): Vec2 { Vec2(a.x + b.x, a.y + b.y) }

  function Sub(a: Vec2, b: Vec2): Vec2 { Vec2(a.x - b.x, a.y - b.y) }

  function Neg(a: Vec2): Vec2 { Vec2(-a.x, -a.y) }

  /** `v * k` for a scalar k. */
  function Times(v: Vec2, k: int): Vec2 { Vec2(v.x * k, v.y * k) }

  /** Vector2Int.Scale: the component-wise product. */
  function Scale(a: Vec2, b: Vec2): Vec2 { Vec2(a.x * b.x, a.y * b.y) }

  function Dot(a: Vec2, b: Vec2): int { a.x * b.x + a.y * b.y }

  /** One of the four unit vectors along an axis. */
  predicate Cardinal(v: Vec2)
  {
    (v.x == 0 && (v.y == 1 || v.y == -1)) || (v.y == 0 && (v.x == 1 || v.x == -1))
  }

  /** Assumed: the facing turned a quarter turn; orthogonal to it and cardinal when it is. */
  function Perpendicular(v: Vec2): Vec2
  {
    Vec2(-v.y, v.x)
  }

  /** Assumed: the component of largest absolute value (x when the two tie). */
  function MaxAxisMagnitude(v: Vec2): (m: int)
    ensures Abs(m) == Max(Abs(v.x), Abs(v.y))
    ensures m == v.x || m == v.y
  {
    if Abs(v.x) >= Abs(v.y) then v.x else v.y
  }

  /** Assumed: the per-axis sign of a vector. */
  function Reduce(v: Vec2): (r: Vec2)
    ensures r == Vec2(0, 0) <==> v == Vec2(0, 0)
  {
    Vec2(Sign(v.x), Sign(v.y))
  }

  lemma PerpendicularIsOrthogonal(v: Vec2)
    ensures Dot(v, Perpendicular(v)) == 0
    ensures Cardinal(v) ==> Cardinal(Perpendicular(v))
  {
  }

  lemma ReduceOfCardinal(v: Vec2)
    requires Cardinal(v)
    ensures Reduce(v) == v
  {
  }

  /** Lexicographic order, x first: the order in which the grid's nested loops visit cells. */
  predicate LexLess(a: Vec2, b: Vec2)
  {
    a.x < b.x || (a.x == b.x && a.y < b.y)
  }
}
